=== FILE: README.md ===
# Personal-finance transaction pipeline, modelled in Dafny

This project models the logic core of a small personal-finance tool. The tool has three parts:

- **Two bank-export adapters.** The AMEX adapter turns the `.xls` statement table into a cleaned CSV. The CIBC adapter does the same for the bank's CSV export. Each adapter has a folder watcher that filters file events, debounces repeated events for the same file, and (for CIBC) retries a file that is still locked.
- **The session helpers of the Streamlit app:**
  - loading a CSV and splitting a signed `Amount` into `Inflow`/`Outflow`;
  - keyword categorisation and keyword learning;
  - merging the session into the persistent ledger with de-duplication;
  - the monthly Outflow/Inflow/Net summary.
- **The two grid-save handlers** that rebuild the session after the user edits the Outflow or Inflow tab.

Records are immutable datatypes and money is whole cents (`int`).
A pandas NaN/NaT cell, or a column the frame does not have, is `None`. `Frames.WellFormed` states that rule, and loading, categorising and merging preserve it.
A frame is a set of column names plus a sequence of rows, so the code's column-presence branches are explicit.
The clock, the user's grid edits and the outcome of each cleaning attempt are parameters.

Modules, one per file:

- `Wrappers`: `Option` and `Result`.
- `Text`: Python `strip`, `lower`, `replace`, `in` and `endswith`.
- `Paths`: `os.path` `basename`, `splitext` and `join`, and the output file names.
- `Digits`: decimal digit strings.
- `Money`: reading decimal amounts as cents.
- `Dates`: the `%d %b %Y` reader and the ISO reader.
- `Frames`: transactions and frames.
- `Categorizer`: `categorize_transactions` and `add_keyword_to_category`.
- `Ledger`: `append_to_persistent_data`.
- `Aggregator`: the summary computation of `create_master_excel`.
- `Loader`: `load_transactions`.
- `Canonical`: what the adapters share.
- `Amex`: `process_xls`.
- `Cibc`: `clean_cibc_csv`.
- `Watcher`: both `process` handlers and the retry loop.
- `SessionEdits`: the two grid saves.

In these places the model follows the code, even where its behaviour is surprising:

- Categorisation: when several categories match, the **last** one in table order wins, because each match overwrites the previous one. It is not the first one.
- The AMEX adapter writes rows whose amount is zero, with both sides zero. It never writes an inflow, whatever the sign of the amount.
- The CIBC adapter keeps rows that have both an Outflow and an Inflow, and it keeps negative values as read.
- The ledger's de-duplication key is (Date, Merchant, Amount) as written. When the concatenation of ledger and session lacks any one of Date, Merchant or Amount, `drop_duplicates` raises `KeyError`; here that is the `MissingKeyColumn` error. No signed key is invented.
- A keyword that is blank after stripping is ignored before the category is looked up, so it succeeds, adding nothing, even for an unknown category.
- An AMEX header that names Amount or Date twice after stripping makes pandas raise; so does a CIBC header whose renaming leaves Date, Description, Outflow or Inflow on more than one column, or on none. Both are the `DuplicateColumn` error.
- AMEX rows whose amount or date does not parse are dropped, not zeroed.
- After five locked attempts, the CIBC retry loop gives up silently (`GaveUp`). Any error other than a locked file escapes the handler (`Raised`).
- The app's saves have two side effects that the model states as lemmas:
  - Saving the Outflow tab drops every session row whose `Outflow` is missing. A positive row of a split `Amount` file is one example.
  - Saving the Inflow tab drops every row whose `Inflow` is missing, and it keeps only the Inflow and Category edits of a row.

## Model

| member | source | states |
|---|---|---|
| Text.StripSpec | main.py:225-228 | the stripped text is a piece of the input with only whitespace before and after it, and neither of its ends is whitespace |
| Text.StripAt | main.py:225-228 | the stripped text sits in the input right after the whitespace stripped from the front, and only whitespace follows it |
| Text.StripPadded | main.py:225-228 | whitespace around a text with no outer whitespace strips back to that text, so the stripped text is determined uniquely |
| Text.StripKeepsChars | main.py:225-228 | every character of the stripped text occurs in the input |
| Text.RemoveChar | exceltocsv.py:40-41 | the character no longer occurs, and every other character keeps its count |
| Paths.BaseName | exceltocsv.py:64 | the base name is a suffix of the path with no `\` or `/`; what precedes it is empty, ends in a separator, or is exactly a drive `X:`, and a drive is never part of the name |
| Paths.DropExtension | exceltocsv.py:64 | the root is a prefix of the name; it is the whole name exactly when the name has no dot or only dots precede its last dot; otherwise the next character is the last dot |
| Paths.Join | exceltocsv.py:65 | the joined path starts with the folder and ends with the file name, with one `\` between them exactly when the folder is non-empty and does not already end in a separator |
| Paths.Stem | exceltocsv.py:64 | the stem is a prefix of the base name, so like the base name it contains no separator |
| Paths.OutputName | exceltocsv.py:64-65 | the output name is the stem followed directly by `_<tag>_cleaned.csv`, with nothing in between (prefix, suffix and exact length) |
| Paths.OutputPath | exceltocsv.py:65 | the output path is the output folder, at most one `\` and then the output name: no subfolder lies in between |
| Paths.BaseNameOfJoin | exceltocsv.py:64-65 | the base name of a folder joined with a separator-free name is that name |
| Paths.DropExtensionOf | exceltocsv.py:64 | a name `root.ext`, with a dot-free extension and a root not made only of dots, loses exactly `.ext` |
| Paths.OutputPathName | exceltocsv.py:64-65 | the output file sits directly in the output folder, under the output name |
| Paths.OutputNameShape | exceltocsv.py:64-65 | the output name starts with the input's stem, ends in `_<tag>_cleaned.csv`, and contains no folder separator |
| Paths.OutputNameCollides | cibc_watcher.py:52-53 | two inputs get the same output name exactly when their stems are equal |
| Money.ParseAmount | exceltocsv.py:44 | only a non-empty string of digits, dots and signs can read as a number |
| Money.ParseFormatCents | exceltocsv.py:44 | every amount in cents reads back from its decimal text |
| Money.ParseRejectsSymbols | cibc_watcher.py:35-36 | text containing `$` or `,` is not a number |
| Dates.ParseDayMonthYear | exceltocsv.py:52 | only a valid date inside the Timestamp range is returned |
| Dates.ParseFormatDayMonthYear | exceltocsv.py:52 | every representable date reads back from its `DD Mon YYYY` form |
| Dates.ParseIsoDate | cibc_watcher.py:42 | only a valid date inside the Timestamp range is returned |
| Dates.ParseFormatIsoDate | cibc_watcher.py:42 | every representable date reads back from its `YYYY-MM-DD` form |
| Categorizer.LastMatch | main.py:221-230 | it returns the latest table entry that matches the merchant, or None when no entry matches |
| Categorizer.AssignLast | main.py:221-230 | the loop over the table ends on the name of the last matching entry, or on the starting category when none matches |
| Categorizer.NormalizeShape | main.py:225-228 | the normalised text has no surrounding whitespace and no upper-case ASCII letter |
| Categorizer.CategoryOfIsLastMatch | main.py:219-230 | a row gets the name of the last matching entry, and it stays "Uncategorized" exactly when no active entry matches |
| Categorizer.LaterMatchWins | main.py:221-230 | with unique names, an earlier matching category never wins over a later one |
| Categorizer.BlankKeywordMatchesAll | main.py:225-229 | a keyword made only of whitespace is empty after lower-casing and stripping, so it matches every merchant |
| Categorizer.Categorize | main.py:218-232 | it fails exactly when Merchant is read but absent; otherwise rows keep their count, order and every field but Category, and each Category is the table's verdict |
| Categorizer.CategorizeWellFormed | main.py:218-232 | categorising adds the Category column it fills, so a frame with no value in a missing column stays so |
| Categorizer.CategorizeIdempotent | main.py:218-232 | categorising twice with the same table equals categorising once |
| Categorizer.CategorizeSameMerchant | main.py:227-230 | rows with the same merchant get the same category |
| Categorizer.IndexOf | main.py:261 | it returns the first position holding the name, or None when the name is absent |
| Categorizer.AddKeyword | main.py:259-266 | it fails exactly when the stripped keyword is non-blank and the category is unknown; a blank keyword changes nothing; otherwise the keyword is added exactly when it is not yet listed, and then only that category's list changes, by appending it |
| Categorizer.BlankKeywordIgnored | main.py:259-261 | a keyword made only of whitespace succeeds and changes nothing, even for an unknown category |
| Categorizer.AddKeywordRepeat | main.py:260-266 | repeating a call adds nothing and returns false |
| Categorizer.AddKeywordKeeps | main.py:261-262 | names and their order stay; each keyword list only grows at its end; unique names stay unique |
| Ledger.Merge | main.py:52-68 | an empty session fails; an empty ledger becomes the session verbatim; otherwise a missing Date, Merchant or Amount column fails, and a success has unique keys, loses or adds no key, and is a subsequence of ledger-then-session |
| Ledger.KeepLast | main.py:64 | de-duplication never lengthens the rows, and the last row always survives |
| Ledger.MergeKeepsLast | main.py:63-64 | every surviving row is the last occurrence of its key in ledger-then-session |
| Ledger.MergeSessionRowWins | main.py:63-64 | a session row survives, and replaces every different ledger row with its key |
| Ledger.MergeTwice | main.py:63-65 | merging the same session a second time changes nothing |
| Ledger.MergeIntoEmptyKeepsDuplicates | main.py:58-64 | into an empty ledger a duplicated row is copied twice; into a non-empty one it occurs exactly once in the result, which is at most one row longer than the ledger |
| Ledger.DoubledKeptOnce | main.py:64 | a row appended twice survives `drop_duplicates(keep="last")` exactly once, and at most one row is added |
| Ledger.MergeWellFormed | main.py:58-64 | merging two frames with no value in a missing column gives such a frame, since every kept row comes from the concatenation and the columns are the union |
| Ledger.KeepLastUnique | main.py:64 | keep-last leaves unique keys, drawn from the input's keys |
| Ledger.KeepLastKeepsLast | main.py:64 | the last row with each key survives |
| Ledger.KeepLastOnlyLast | main.py:64 | only last occurrences survive |
| Ledger.KeepLastSubsequence | main.py:64 | the survivors keep their relative order |
| Ledger.KeepLastCoversKeys | main.py:64 | no key disappears |
| Ledger.KeepLastAppend | main.py:63-64 | deduplicating a concatenation equals deduplicating each part and dropping from the first part the keys of the second |
| Ledger.KeepLastIdempotent | main.py:64 | deduplicating twice equals deduplicating once |
| Ledger.DropDuplicatesKeepLast | main.py:64 | the backward scan with a seen-set computes keep-last |
| Aggregator.Insert | main.py:124 | the months stay strictly increasing and gain exactly the inserted month |
| Aggregator.Months | main.py:124 | strictly increasing months, exactly the months of the rows |
| Aggregator.Summary | main.py:72-153 | an empty ledger, or one with no money column, is an error; otherwise one strictly increasing line per booked month plus the current one, each line with its month's Outflow and Inflow sums and Net = Inflow − Outflow |
| Aggregator.CurrentMonthPresent | main.py:138-149 | the current month has a line, with zero Outflow, Inflow and Net when no row is booked in it |
| Aggregator.LegacyMonthSums | main.py:104-118 | in the Amount-only layout every month's Inflow is 0 and its Outflow, a sum of \|Amount\|, is non-negative |
| Aggregator.MonthSumAbsent | main.py:140-142 | a month with no booked row sums to zero |
| Aggregator.MonthSumIsGroupSum | main.py:97-117 | a month's Outflow or Inflow is the sum over that month's group of rows |
| Aggregator.SummaryConservesTotals | main.py:91-136 | the summary's Outflow (Inflow) column adds up to the ledger's total Outflow (Inflow) |
| Loader.SplitRow | main.py:248-249 | Inflow is set exactly when Amount > 0 and Outflow exactly when Amount < 0; no other field changes |
| Loader.SplitRowFaithful | main.py:248-249 | Inflow − Outflow equals the Amount, never both sides are set, and the set side is positive |
| Loader.SplitAmount | main.py:246-249 | every row is split in place, and the frame gains Inflow and Outflow |
| Loader.LoadWellFormed | main.py:234-254 | loading a frame with no value in a missing column gives such a frame: the split fills only the Inflow and Outflow columns it adds |
| Loader.Load | main.py:234-254 | a frame with neither Inflow/Outflow nor Amount is refused; categorising fails exactly when Merchant is read but absent; otherwise the result has Inflow and Outflow, the same row count, rows equal to the input (or its split) apart from Category, and each Category is the table's verdict for the row's merchant |
| Canonical.ColumnIndex | exceltocsv.py:33-61 | a position holding the name, or None when no column has it |
| Canonical.UniqueColumn | exceltocsv.py:36-52 | a name held by one column only is found at that column |
| Canonical.FilterMapIsSurvivors | cibc_watcher.py:39-45 | the rows written are the cleanings of the surviving rows, in input order |
| Canonical.FilterMapAll | exceltocsv.py:61 | a property of every cleaned row holds of every written row |
| Amex.AmountText | exceltocsv.py:37-43 | the amount text has no `$` and no `,`; PaddedAmountReads carries the strip |
| Amex.DateText | exceltocsv.py:51 | the date text is the cell's text with every `.` removed: no `.` is left and every other character keeps its count |
| Amex.FindLayout | exceltocsv.py:36-61 | it fails exactly when Date, Description or Amount is missing; otherwise it names positions holding those columns, and Merchant when present |
| Amex.CleanRow | exceltocsv.py:30-61 | a row is kept exactly when it is not blank, its amount and date parse, and Description and Merchant are present; a kept row has Inflow 0, Outflow \|Amount\|, Source AMEX and the cells it read |
| Amex.Clean | exceltocsv.py:28-66 | no table or an empty header cell is unreadable; a repeated Amount or Date is a duplicate-column error; a missing Date, Description or Amount is a missing-column error; on success the file goes to the stem + `_amex_cleaned.csv` path, and every written row is an AMEX outflow |
| Amex.CleanRowsInOrder | exceltocsv.py:29-61 | the written rows are the cleanings of the surviving data rows, in sheet order |
| Amex.DefaultMerchantEverywhere | exceltocsv.py:56-57 | without a Merchant column every row's merchant is "AMEX Transaction" |
| Amex.NegativeAmountIsOutflow | exceltocsv.py:45-47 | a negative amount is written as a positive outflow with no inflow |
| Amex.ZeroAmountKept | exceltocsv.py:44-61 | a zero amount is kept, with both sides zero |
| Amex.DollarAmountReads | exceltocsv.py:37-44 | `$` followed by an amount's text reads as that amount |
| Amex.DollarAnywhereReads | exceltocsv.py:37-44 | a `$` anywhere in an amount's text, such as after the minus in `-$12.00`, leaves it reading as that amount |
| Amex.SeparatedAmountReads | exceltocsv.py:37-44 | a `$` in front and a thousands separator anywhere, as in `$1,234.50`, leave the text reading as the amount |
| Amex.PaddedAmountReads | exceltocsv.py:37-44 | whitespace around `$<amount>` is stripped, so the padded text reads as the amount |
| Amex.AmountTextDrops | exceltocsv.py:40-41 | the amount cleaning gives the same text with or without one `$` or `,` at any position |
| Amex.ClashFreeLayout | exceltocsv.py:36-52 | when the header passes, the columns the cleaner reads as Amount and Date are the only ones with those names |
| Amex.DottedDateReads | exceltocsv.py:50-52 | `DD Mon. YYYY` reads as the date |
| Cibc.CoerceAmount | cibc_watcher.py:35-36 | a non-zero value is what the cell parses to; a cell that does not parse counts as 0 |
| Cibc.CellDate | cibc_watcher.py:42 | a missing cell has no date, and a present cell's date is what the ISO reader makes of its text |
| Cibc.CleanRow | cibc_watcher.py:35-49 | a row is kept exactly when some amount is non-zero, the date parses and Description is present; both amounts are kept as read, Merchant = Description, Source = CIBC |
| Cibc.Clean | cibc_watcher.py:13-57 | fewer than four columns is a format mismatch; a header whose renaming leaves any of Date, Description, Outflow, Inflow missing or repeated is a duplicate-column error; otherwise the file goes to the stem + `_cibc_cleaned.csv` path, and every written row has a non-zero side, Source CIBC and Merchant = Description |
| Cibc.CleanRowsInOrder | cibc_watcher.py:39-45 | the written rows are the cleanings of the surviving lines, in file order |
| Cibc.ReadByPosition | cibc_watcher.py:21-28 | when the header passes, the first four columns are read as Date, Description, Outflow and Inflow, and no later column carries one of those names |
| Cibc.DroppedLines | cibc_watcher.py:39-45 | a line is written exactly when it cleans to a record |
| Cibc.SeparatedAmountIsZero | cibc_watcher.py:35-36 | an amount with a thousands separator or a dollar sign counts as zero |
| Cibc.SeparatedLineDropped | cibc_watcher.py:35-39 | a line whose two amounts both carry separators is dropped |
| Cibc.BothSidesKept | cibc_watcher.py:35-39 | a line with both sides, or a negative side, is written as read |
| Watcher.Handle | exceltocsv.py:82-95 | a non-matching event is ignored; an event within 10 s of the last processing is skipped; otherwise the time is recorded before processing; other paths are untouched |
| Watcher.Run | exceltocsv.py:82-95 | the handler run over an event stream makes one decision per event |
| Watcher.RunDecides | cibc_watcher.py:70-80 | with a clock that does not run backwards, an event is processed exactly when it matches the extension and its path was not processed less than 10 s before |
| Watcher.RunRecords | exceltocsv.py:90-93 | the map holds, for each path, the time of its latest processing |
| Watcher.RecentIff | exceltocsv.py:90 | a path counts as recent exactly when one of its recorded processings is less than 10 s old |
| Watcher.RunPrefix | cibc_watcher.py:68-80 | a decision does not depend on later events |
| Watcher.ProcessedSpaced | exceltocsv.py:90-93 | two processings of one file are at least 10 s apart |
| Watcher.UpperCaseExtension | exceltocsv.py:83 | an upper-case `.XLS` is picked up |
| Watcher.WorkbookIgnored | exceltocsv.py:83 | an `.xlsx` file is ignored |
| Watcher.FirstUnlocked | cibc_watcher.py:83-89 | it returns the first attempt that is not locked, or 5 when all five are locked |
| Watcher.Retry | cibc_watcher.py:83-89 | the loop gives up exactly when five attempts are locked; otherwise it stops at the first unlocked attempt, with one call per attempt and one sleep per locked attempt |
| SessionEdits.Select | main.py:481 | the selected rows satisfy the filter and are rows of the input, and every input row satisfying it is selected |
| SessionEdits.SelectCounts | main.py:481 | each row satisfying the filter is kept as often as it occurs, and no other row is kept |
| SessionEdits.SelectAppend | main.py:481 | selecting from two stretches of rows is selecting from each in turn, so the input order is kept |
| SessionEdits.Shown | main.py:462-467 | only the shown columns survive; the money column always has a value: the original value when there was one, and 0 when it was missing |
| SessionEdits.KeptRowsCount | main.py:461-462 | the kept rows are one per unticked row, and there are none exactly when every row is ticked |
| SessionEdits.LearnFromRows | main.py:471-476 | the table keeps its names in place and only grows its keyword lists |
| SessionEdits.LearnFromRowsOnly | main.py:471-476 | every keyword a list gains is the stripped merchant of a kept row with a known category, and that category is the list's |
| SessionEdits.LearnFromRowsLearns | main.py:471-476 | every kept row with a merchant and a known category has its merchant among that category's keywords |
| SessionEdits.SaveOutflow | main.py:455-489 | split layout: non-outflow session rows, then kept grid rows; legacy layout: the kept grid rows alone; with Merchant and Category shown the table is exactly what learning from the kept rows gives, otherwise it is unchanged |
| SessionEdits.MissingOutflowDropped | main.py:480-482 | a session row with no Outflow is not kept by the outflow save |
| SessionEdits.SaveOutflowCount | main.py:480-482 | the saved row count is the non-outflow rows plus the unticked grid rows |
| SessionEdits.Updated | main.py:657-664 | only Inflow and Category are taken from the grid |
| SessionEdits.InflowKept | main.py:652-673 | the unticked grid rows that have an inflow row to pair with, in grid order: one kept row for each, and none exactly when no paired row is unticked |
| SessionEdits.InflowPass | main.py:653-673 | the pass raises exactly when some unticked paired row has a non-blank merchant and changes its category to one the table lacks; otherwise the kept rows are InflowKept's; every kept row is the update of an unticked grid row and its paired inflow row; the table only learns |
| SessionEdits.SaveInflow | main.py:648-697 | aborted exactly when a kept row raises; the session is left alone exactly when no paired grid row is unticked; a save is the non-inflow rows followed by InflowKept's rows, with the Delete and Category columns added |
| SessionEdits.InflowKeepsOtherFields | main.py:657-664 | date, description, merchant, amount, outflow and source are not taken from the grid |
| SessionEdits.MissingInflowDropped | main.py:684 | a row with no Inflow is neither kept nor offered for editing |

## Left out

- Reading and writing files is not modelled: xlwings, `read_csv`, `to_csv`, the JSON files of categories and transactions, the openpyxl workbook and `os.makedirs`. Each adapter receives already-read cells and returns the path and rows it would write.
- The Streamlit UI is not modelled: tabs, buttons, metrics, charts, sorting controls and `st.rerun`. Session state and grid contents are parameters.
- The watchdog Observer, the `start_watching` loops and KeyboardInterrupt are not modelled. `time.time()` is the `now` of each event, and `time.sleep` is a counted step.
- Money.ParseAmount: reads `sign? digits ('.' up to two digits)?` into whole cents. It does not model float arithmetic, exponents, surrounding whitespace, or amounts with more than two decimals, which pandas would parse.
- Dates.ParseDayMonthYear: treats strptime's whitespace as exactly one space, and reads English month abbreviations in ASCII case only.
- Dates.ParseIsoDate: models `to_datetime`'s format inference as `YYYY-MM-DD` only.
- Text.Strip: strips ASCII whitespace only, and Text.Lower lower-cases ASCII only; Unicode rules are not modelled.
- Amex.Clean: takes cells as text. It does not model xlwings returning numbers or datetimes, or the scalar and flat-list shapes of a one-cell or one-row table. It ignores cells beyond the header width, where pandas would raise.
- Cibc.Clean: takes the header as `read_csv` returns it, after its renaming of repeated names (`Date`, `Date.1`); that renaming is not modelled.
- Amex.Clean: does not model a repeated Description, Merchant, Inflow, Outflow or Source header, which the source writes as two columns. It reports a missing Amount column as `MissingColumn` even when the sheet carries its own Inflow and Outflow columns, which the source would then write as they stand.
- Paths.Join: does not model a name that carries its own drive or root, which `ntpath.join` would let replace the folder, nor a folder that is a bare drive `X:`, which `ntpath.join` joins without a separator (`C:name`); the output folder is always a full path. Paths.BaseName does not model UNC drives (`\\server\share`).
- Aggregator.Summary: requires every row of a frame with a Date column to carry a parsed date. The "NaT" month label of unparsable dates is not modelled.
- Ledger.Merge: the `KeyError` for a missing key column is an error result, not an exception. Persisting the ledger is not modelled.
- The workbook layout written by `create_master_excel` (main.py:155-215) is not modelled.
- SessionEdits.SaveOutflow: the grid rows are an input. The grid's sort order and the dtype changes made by the editor are not modelled.
- SessionEdits.SaveInflow: modelled only for a frame with Inflow and Outflow columns, the only case where the tab offers the grid.
- Watcher.Retry: does not model the CIBC cleaner's own outcome beyond done, locked, or other error.
- Console output (`print`, `st.success`, `st.warning`) is not modelled.

=== FILE: aggregator.dfy ===
/** The monthly Outflow / Inflow / Net roll-up of the ledger computed by
    create_master_excel in main.py (the workbook it writes is not modelled). */
module Aggregator {
  import opened Wrappers
  import opened Frames
  import Money

  /** A `%Y-%m` month label. For the four-digit years a Timestamp can hold,
      ordering the labels as text is ordering (year, month). */
  datatype YearMonth = YearMonth(year: int, month: int)

  predicate MonthLess(a: YearMonth, b: YearMonth) {
    a.year < b.year || (a.year == b.year && a.month < b.month)
  }

  predicate StrictlySorted(ms: seq<YearMonth>) {
    forall i, j :: 0 <= i < j < |ms| ==> MonthLess(ms[i], ms[j])
  }

  /** Which columns the roll-up reads: whether the frame has a Date
      column, and whether it has Inflow and Outflow or only Amount. */
  datatype Layout = Layout(hasDate: bool, split: bool)

  /** Rows of a frame with a Date column must carry a parsed date. */
  predicate Dated(layout: Layout, rows: seq<Txn>) {
    layout.hasDate ==> forall i :: 0 <= i < |rows| ==> rows[i].date.Some?
  }

  /** The month a row is booked in; without a Date column every row is
      booked in the current month. */
  function RowMonth(layout: Layout, today: YearMonth, r: Txn): YearMonth
    requires layout.hasDate ==> r.date.Some?
  {
    if layout.hasDate then YearMonth(r.date.value.year, r.date.value.month) else today
  }

  /** What a row adds to its month's Outflow: the Outflow cell, or in the
      legacy layout |Amount|. NaN cells add nothing, as in a pandas sum. */
  function RowOutflow(layout: Layout, r: Txn): int {
    if layout.split then r.outflow.GetOr(0) else Money.Abs(r.amount.GetOr(0))
  }

  /** What a row adds to its month's Inflow; the legacy layout has none. */
  function RowInflow(layout: Layout, r: Txn): int {
    if layout.split then r.inflow.GetOr(0) else 0
  }

  /** Sum of a row quantity over the rows booked in month `m`. */
  function MonthSum(layout: Layout, today: YearMonth, rows: seq<Txn>, m: YearMonth, outflow: bool): (r: int)
    requires Dated(layout, rows)
  {
    if rows == [] then 0
    else
      var v := if outflow then RowOutflow(layout, rows[0]) else RowInflow(layout, rows[0]);
      (if RowMonth(layout, today, rows[0]) == m then v else 0) + MonthSum(layout, today, rows[1..], m, outflow)
  }

  /** The rows booked in month `m`, in order: one group of the groupby. */
  function InMonth(layout: Layout, today: YearMonth, rows: seq<Txn>, m: YearMonth): (g: seq<Txn>)
    requires Dated(layout, rows)
    ensures forall x :: x in g <==> x in rows && RowMonth(layout, today, x) == m
  {
    if rows == [] then []
    else (if RowMonth(layout, today, rows[0]) == m then [rows[0]] else []) + InMonth(layout, today, rows[1..], m)
  }

  /** Sum of a row quantity over all rows. */
  function TotalSum(layout: Layout, rows: seq<Txn>, outflow: bool): int {
    if rows == [] then 0
    else (if outflow then RowOutflow(layout, rows[0]) else RowInflow(layout, rows[0])) + TotalSum(layout, rows[1..], outflow)
  }

  function MonthSet(layout: Layout, today: YearMonth, rows: seq<Txn>): set<YearMonth>
    requires Dated(layout, rows)
  {
    set i | 0 <= i < |rows| :: RowMonth(layout, today, rows[i])
  }

  function Elements(ms: seq<YearMonth>): set<YearMonth> {
    set x | x in ms
  }

  /** Insertion into a strictly increasing list of months. */
  function Insert(ms: seq<YearMonth>, m: YearMonth): (r: seq<YearMonth>)
    requires StrictlySorted(ms)
    ensures StrictlySorted(r)
    ensures Elements(r) == Elements(ms) + {m}
  {
    if ms == [] then [m]
    else if m == ms[0] then ms
    else if MonthLess(m, ms[0]) then
      var r := [m] + ms;
      assert forall j :: 0 < j < |r| ==> r[j] == ms[j - 1];
      r
    else
      var rest := Insert(ms[1..], m);
      InsertCons(ms, m, rest);
      [ms[0]] + rest
  }

  /** Putting the head back in front of the insertion into the tail. */
  lemma InsertCons(ms: seq<YearMonth>, m: YearMonth, rest: seq<YearMonth>)
    requires StrictlySorted(ms) && ms != [] && MonthLess(ms[0], m)
    requires StrictlySorted(rest) && Elements(rest) == Elements(ms[1..]) + {m}
    ensures StrictlySorted([ms[0]] + rest)
    ensures Elements([ms[0]] + rest) == Elements(ms) + {m}
  {
    var r := [ms[0]] + rest;
    forall x | x in rest ensures MonthLess(ms[0], x) {
      assert x in Elements(rest);
      if x != m {
        assert x in Elements(ms[1..]);
        var j :| 0 <= j < |ms[1..]| && ms[1..][j] == x;
        assert ms[j + 1] == x;
      }
    }
    forall i, j | 0 <= i < j < |r| ensures MonthLess(r[i], r[j]) {
      assert r[j] == rest[j - 1];
      if i > 0 {
        assert r[i] == rest[i - 1];
      }
    }
    forall x ensures x in Elements(r) <==> x in Elements(ms) + {m} {
      assert x in r <==> x == ms[0] || x in rest;
      assert x in ms <==> x == ms[0] || x in ms[1..];
      assert x in rest <==> x in Elements(rest);
      assert x in ms[1..] <==> x in Elements(ms[1..]);
    }
  }

  /** The distinct months of the rows, in increasing order. */
  function Months(layout: Layout, today: YearMonth, rows: seq<Txn>): (ms: seq<YearMonth>)
    requires Dated(layout, rows)
    ensures StrictlySorted(ms)
    ensures Elements(ms) == MonthSet(layout, today, rows)
  {
    if rows == [] then []
    else
      var front := rows[..|rows| - 1];
      assert forall i :: 0 <= i < |front| ==> front[i] == rows[i];
      MonthSetSnoc(layout, today, rows);
      Insert(Months(layout, today, front), RowMonth(layout, today, rows[|rows| - 1]))
  }

  lemma MonthSetSnoc(layout: Layout, today: YearMonth, rows: seq<Txn>)
    requires Dated(layout, rows) && rows != []
    ensures Dated(layout, rows[..|rows| - 1])
    ensures MonthSet(layout, today, rows)
      == MonthSet(layout, today, rows[..|rows| - 1]) + {RowMonth(layout, today, rows[|rows| - 1])}
  {
    var front := rows[..|rows| - 1];
    assert forall i :: 0 <= i < |front| ==> front[i] == rows[i];
  }

  datatype MonthTotal = MonthTotal(month: YearMonth, outflow: int, inflow: int, net: int)

  datatype SummaryError = NoData | NoAmountColumn

  function LayoutOf(f: Frame): Layout {
    Layout(DateColumn in f.columns, HasSplitColumns(f))
  }

  /** One summary line per month of the ledger plus the current month,
      months increasing, each with its Outflow and Inflow sums and
      Net = Inflow - Outflow. An empty ledger is reported; a ledger with
      neither Inflow/Outflow nor Amount columns is refused. */
  function Summary(f: Frame, today: YearMonth): (r: Result<seq<MonthTotal>, SummaryError>)
    requires Dated(LayoutOf(f), f.rows)
    ensures r == Failure(NoData) <==> IsEmpty(f)
    ensures r == Failure(NoAmountColumn) <==> !IsEmpty(f) && !HasSplitColumns(f) && AmountColumn !in f.columns
    ensures r.Success? ==>
      var layout := LayoutOf(f);
      && StrictlySorted(seq(|r.value|, i requires 0 <= i < |r.value| => r.value[i].month))
      && (set i | 0 <= i < |r.value| :: r.value[i].month) == MonthSet(layout, today, f.rows) + {today}
      && forall i :: 0 <= i < |r.value| ==>
           && r.value[i].outflow == MonthSum(layout, today, f.rows, r.value[i].month, true)
           && r.value[i].inflow == MonthSum(layout, today, f.rows, r.value[i].month, false)
           && r.value[i].net == r.value[i].inflow - r.value[i].outflow
  {
    if IsEmpty(f) then Failure(NoData)
    else if !HasSplitColumns(f) && AmountColumn !in f.columns then Failure(NoAmountColumn)
    else
      var layout := LayoutOf(f);
      var ms := Insert(Months(layout, today, f.rows), today);
      var entries := Lines(layout, today, f.rows, ms);
      LinesMonths(entries, ms);
      Success(entries)
  }

  /** One summary line for each month of `ms`, in the order of `ms`. */
  function Lines(layout: Layout, today: YearMonth, rows: seq<Txn>, ms: seq<YearMonth>): (entries: seq<MonthTotal>)
    requires Dated(layout, rows)
    ensures |entries| == |ms|
    ensures forall i :: 0 <= i < |ms| ==>
      && entries[i].month == ms[i]
      && entries[i].outflow == MonthSum(layout, today, rows, ms[i], true)
      && entries[i].inflow == MonthSum(layout, today, rows, ms[i], false)
      && entries[i].net == entries[i].inflow - entries[i].outflow
  {
    seq(|ms|, i requires 0 <= i < |ms| =>
      var out := MonthSum(layout, today, rows, ms[i], true);
      var inc := MonthSum(layout, today, rows, ms[i], false);
      MonthTotal(ms[i], out, inc, inc - out))
  }

  lemma LinesMonths(entries: seq<MonthTotal>, ms: seq<YearMonth>)
    requires |entries| == |ms| && forall i :: 0 <= i < |ms| ==> entries[i].month == ms[i]
    ensures seq(|entries|, i requires 0 <= i < |entries| => entries[i].month) == ms
    ensures (set i | 0 <= i < |entries| :: entries[i].month) == Elements(ms)
  {
    forall x | x in ms ensures x in (set i | 0 <= i < |entries| :: entries[i].month) {
      var i :| 0 <= i < |ms| && ms[i] == x;
      assert entries[i].month == x;
    }
  }

  /** A month's sum is the sum over that month's group of rows. */
  lemma {:induction false} MonthSumIsGroupSum(layout: Layout, today: YearMonth, rows: seq<Txn>, m: YearMonth, outflow: bool)
    requires Dated(layout, rows)
    ensures MonthSum(layout, today, rows, m, outflow) == TotalSum(layout, InMonth(layout, today, rows, m), outflow)
  {
    if rows != [] {
      MonthSumIsGroupSum(layout, today, rows[1..], m, outflow);
      var rest := InMonth(layout, today, rows[1..], m);
      if RowMonth(layout, today, rows[0]) == m {
        assert ([rows[0]] + rest)[1..] == rest;
      } else {
        assert [] + rest == rest;
      }
    }
  }

  /** A month without any row sums to zero. */
  lemma {:induction false} MonthSumAbsent(layout: Layout, today: YearMonth, rows: seq<Txn>, m: YearMonth, outflow: bool)
    requires Dated(layout, rows)
    requires m !in MonthSet(layout, today, rows)
    ensures MonthSum(layout, today, rows, m, outflow) == 0
  {
    if rows != [] {
      assert RowMonth(layout, today, rows[0]) in MonthSet(layout, today, rows);
      assert MonthSet(layout, today, rows[1..]) <= MonthSet(layout, today, rows) by {
        forall x | x in MonthSet(layout, today, rows[1..]) ensures x in MonthSet(layout, today, rows) {
          var i :| 0 <= i < |rows[1..]| && RowMonth(layout, today, rows[1..][i]) == x;
          assert rows[1..][i] == rows[i + 1];
        }
      }
      MonthSumAbsent(layout, today, rows[1..], m, outflow);
    }
  }

  /** The current month always has a line; with no row booked in it, its
      Outflow, Inflow and Net are all zero. */
  lemma CurrentMonthPresent(f: Frame, today: YearMonth)
    requires Dated(LayoutOf(f), f.rows) && Summary(f, today).Success?
    ensures var s := Summary(f, today).value;
      exists i :: 0 <= i < |s| && s[i].month == today
        && (today !in MonthSet(LayoutOf(f), today, f.rows) ==> s[i].outflow == 0 && s[i].inflow == 0 && s[i].net == 0)
  {
    var s := Summary(f, today).value;
    assert today in (set i | 0 <= i < |s| :: s[i].month);
    var i :| 0 <= i < |s| && s[i].month == today;
    if today !in MonthSet(LayoutOf(f), today, f.rows) {
      MonthSumAbsent(LayoutOf(f), today, f.rows, today, true);
      MonthSumAbsent(LayoutOf(f), today, f.rows, today, false);
    }
  }

  /** In the legacy Amount layout every month's Inflow is zero and its
      Outflow, a sum of magnitudes, is never negative. */
  lemma {:induction false} LegacyMonthSums(layout: Layout, today: YearMonth, rows: seq<Txn>, m: YearMonth)
    requires !layout.split && Dated(layout, rows)
    ensures MonthSum(layout, today, rows, m, false) == 0
    ensures MonthSum(layout, today, rows, m, true) >= 0
  {
    if rows != [] {
      LegacyMonthSums(layout, today, rows[1..], m);
    }
  }

  // ---------------------------------------------------------------------
  // Nothing is lost or counted twice

  /** Sum over a list of months of the per-month sums. */
  function SumOverMonths(layout: Layout, today: YearMonth, rows: seq<Txn>, ms: seq<YearMonth>, outflow: bool): int
    requires Dated(layout, rows)
  {
    if ms == [] then 0
    else MonthSum(layout, today, rows, ms[0], outflow) + SumOverMonths(layout, today, rows, ms[1..], outflow)
  }

  lemma {:induction false} SumOverMonthsCons(layout: Layout, today: YearMonth, rows: seq<Txn>, ms: seq<YearMonth>, outflow: bool)
    requires rows != [] && Dated(layout, rows) && StrictlySorted(ms)
    ensures var r := rows[0];
      var v := if outflow then RowOutflow(layout, r) else RowInflow(layout, r);
      SumOverMonths(layout, today, rows, ms, outflow) ==
        (if RowMonth(layout, today, r) in ms then v else 0) + SumOverMonths(layout, today, rows[1..], ms, outflow)
  {
    if ms != [] {
      assert StrictlySorted(ms[1..]) by {
        forall i, j | 0 <= i < j < |ms[1..]| ensures MonthLess(ms[1..][i], ms[1..][j]) {
          assert ms[1..][i] == ms[i + 1] && ms[1..][j] == ms[j + 1];
        }
      }
      SumOverMonthsCons(layout, today, rows, ms[1..], outflow);
      var rm := RowMonth(layout, today, rows[0]);
      if rm == ms[0] {
        assert rm !in ms[1..] by {
          forall k | 0 <= k < |ms[1..]| ensures ms[1..][k] != rm {
            assert ms[1..][k] == ms[k + 1];
            assert MonthLess(ms[0], ms[k + 1]);
          }
        }
      }
      assert rm in ms <==> rm == ms[0] || rm in ms[1..];
    }
  }

  /** Summing the monthly lines gives the total over all rows: every row
      is counted in exactly one month. */
  lemma {:induction false} MonthsPartitionTotal(layout: Layout, today: YearMonth, rows: seq<Txn>, ms: seq<YearMonth>, outflow: bool)
    requires Dated(layout, rows) && StrictlySorted(ms)
    requires MonthSet(layout, today, rows) <= Elements(ms)
    ensures SumOverMonths(layout, today, rows, ms, outflow) == TotalSum(layout, rows, outflow)
  {
    if rows == [] {
      SumOverMonthsEmpty(layout, today, rows, ms, outflow);
    } else {
      SumOverMonthsCons(layout, today, rows, ms, outflow);
      assert RowMonth(layout, today, rows[0]) in MonthSet(layout, today, rows);
      assert MonthSet(layout, today, rows[1..]) <= MonthSet(layout, today, rows) by {
        forall x | x in MonthSet(layout, today, rows[1..]) ensures x in MonthSet(layout, today, rows) {
          var i :| 0 <= i < |rows[1..]| && RowMonth(layout, today, rows[1..][i]) == x;
          assert rows[1..][i] == rows[i + 1];
        }
      }
      MonthsPartitionTotal(layout, today, rows[1..], ms, outflow);
    }
  }

  lemma {:induction false} SumOverMonthsEmpty(layout: Layout, today: YearMonth, rows: seq<Txn>, ms: seq<YearMonth>, outflow: bool)
    requires rows == []
    ensures SumOverMonths(layout, today, rows, ms, outflow) == 0
  {
    if ms != [] {
      SumOverMonthsEmpty(layout, today, rows, ms[1..], outflow);
    }
  }

  /** The Outflow (and Inflow) column of the summary adds up to the total
      Outflow (Inflow) of the ledger. */
  lemma SummaryConservesTotals(f: Frame, today: YearMonth, outflow: bool)
    requires Dated(LayoutOf(f), f.rows) && Summary(f, today).Success?
    ensures var s := Summary(f, today).value;
      SumOverMonths(LayoutOf(f), today, f.rows, seq(|s|, i requires 0 <= i < |s| => s[i].month), outflow)
        == TotalSum(LayoutOf(f), f.rows, outflow)
  {
    var s := Summary(f, today).value;
    var ms := seq(|s|, i requires 0 <= i < |s| => s[i].month);
    var labels := set i | 0 <= i < |s| :: s[i].month;
    forall x | x in labels ensures x in Elements(ms) {
      var i :| 0 <= i < |s| && s[i].month == x;
      assert ms[i] == x;
    }
    MonthsPartitionTotal(LayoutOf(f), today, f.rows, ms, outflow);
  }
}

=== FILE: amex.dfy ===
/** The AMEX statement cleaner (process_xls in exceltocsv.py), from the
    table xlwings reads at cell A12 to the rows and name of the CSV it
    writes. */
module Amex {
  import opened Wrappers
  import opened Text
  import opened Money
  import opened Dates
  import opened Canonical
  import Paths

  const Source: string := "AMEX"
  const DefaultMerchant: string := "AMEX Transaction"
  const Tag: string := "amex"

  /** Amount cell text with every `$` and `,` removed and the result stripped. */
  function AmountText(c: Cell): (t: string)
    ensures '$' !in t && ',' !in t
  {
    var noDollar := RemoveChar(CellText(c), '$');
    var plain := RemoveChar(noDollar, ',');
    assert '$' !in plain by {
      assert multiset(plain)['$'] == multiset(noDollar)['$'] == 0;
    }
    StripKeepsChars(plain);
    Strip(plain)
  }

  /** Date cell text with every `.` removed ("15 Jan. 2024" reads as
      "15 Jan 2024"). */
  function DateText(c: Cell): (t: string)
    ensures '.' !in t
    ensures multiset(t) == multiset(CellText(c))['.' := 0]
  {
    RemoveChar(CellText(c), '.')
  }

  /** Where the columns the cleaner reads sit, found by (stripped) name. */
  datatype Layout = Layout(date: nat, description: nat, amount: nat, merchant: Option<nat>)

  function FindLayout(columns: seq<string>): (r: Option<Layout>)
    ensures r.None? <==> "Date" !in columns || "Description" !in columns || "Amount" !in columns
    ensures r.Some? ==>
      && r.value.date < |columns| && columns[r.value.date] == "Date"
      && r.value.description < |columns| && columns[r.value.description] == "Description"
      && r.value.amount < |columns| && columns[r.value.amount] == "Amount"
      && (r.value.merchant.Some? <==> "Merchant" in columns)
      && (r.value.merchant.Some? ==> r.value.merchant.value < |columns| && columns[r.value.merchant.value] == "Merchant")
  {
    match (ColumnIndex(columns, "Date"), ColumnIndex(columns, "Description"), ColumnIndex(columns, "Amount"))
    case (Some(d), Some(n), Some(a)) => Some(Layout(d, n, a, ColumnIndex(columns, "Merchant")))
    case _ => None
  }

  predicate AllEmpty(row: Row) {
    forall i :: 0 <= i < |row| ==> row[i].None?
  }

  function MerchantCell(layout: Layout, row: Row): Cell {
    match layout.merchant
    case None => Some(DefaultMerchant)
    case Some(j) => CellAt(row, j)
  }

  /** One spreadsheet row. Fully empty rows are dropped first; a row whose
      amount or date does not parse, or whose Description or Merchant cell
      is empty, is dropped by the final dropna. Every kept row is an
      outflow of |Amount| with no inflow, whatever the sign. */
  function CleanRow(layout: Layout, row: Row): (r: Option<Record>)
    ensures r.Some? <==>
      && !AllEmpty(row)
      && ParseAmount(AmountText(CellAt(row, layout.amount))).Some?
      && ParseDayMonthYear(DateText(CellAt(row, layout.date))).Some?
      && CellAt(row, layout.description).Some?
      && MerchantCell(layout, row).Some?
    ensures r.Some? ==>
      && r.value.inflow == 0
      && r.value.outflow == Abs(ParseAmount(AmountText(CellAt(row, layout.amount))).value)
      && r.value.date == ParseDayMonthYear(DateText(CellAt(row, layout.date))).value
      && Some(r.value.description) == CellAt(row, layout.description)
      && r.value.source == Source
      && Some(r.value.merchant) == MerchantCell(layout, row)
  {
    if AllEmpty(row) then None
    else
      var amount := ParseAmount(AmountText(CellAt(row, layout.amount)));
      var date := ParseDayMonthYear(DateText(CellAt(row, layout.date)));
      var description := CellAt(row, layout.description);
      var merchant := MerchantCell(layout, row);
      if amount.Some? && date.Some? && description.Some? && merchant.Some? then
        Some(Record(date.value, description.value, 0, Abs(amount.value), Source, merchant.value))
      else None
  }

  /** The row cleaner for one layout, as a function value. */
  function Cleaner(layout: Layout): Row -> Option<Record> {
    (row: Row) => CleanRow(layout, row)
  }

  /** The cleaned record of a row is an AMEX outflow with nothing flowing in. */
  predicate IsAmexOutflow(r: Record) {
    r.inflow == 0 && r.outflow >= 0 && r.source == Source
  }

  /** The table has a header row and every header cell holds text, so
      its names can be stripped. */
  predicate HeaderReadable(data: seq<Row>) {
    data != [] && forall i :: 0 <= i < |data[0]| ==> data[0][i].Some?
  }

  /** A repeated Amount or Date makes `df[...]` a frame, and the `.str`
      accessor used on it raises. */
  predicate Clashes(columns: seq<string>) {
    Repeated(columns, "Amount") || Repeated(columns, "Date")
  }

  /** process_xls on the table read at A12: the first row names the
      columns (each stripped). A missing table or an empty header cell, a
      repeated Amount or Date, and a table without Date, Description or
      Amount columns all end in the handler's catch-all, and nothing is
      written. */
  function Clean(folder: string, path: string, data: seq<Row>): (r: Result<Output, CleanError>)
    ensures r == Failure(UnreadableHeader) <==> !HeaderReadable(data)
    ensures r == Failure(DuplicateColumn) <==> HeaderReadable(data) && Clashes(Columns(data[0]))
    ensures r == Failure(MissingColumn) <==>
      HeaderReadable(data) && !Clashes(Columns(data[0])) && FindLayout(Columns(data[0])).None?
    ensures r.Success? ==>
      && r.value.path == Paths.OutputPath(folder, path, Tag)
      && |r.value.rows| <= |data| - 1
      && forall k :: 0 <= k < |r.value.rows| ==> IsAmexOutflow(r.value.rows[k])
  {
    if !HeaderReadable(data) then Failure(UnreadableHeader)
    else if Clashes(Columns(data[0])) then Failure(DuplicateColumn)
    else
      match FindLayout(Columns(data[0]))
      case None => Failure(MissingColumn)
      case Some(layout) =>
        FilterMapAll(Cleaner(layout), data[1..], IsAmexOutflow);
        Success(Output(Paths.OutputPath(folder, path, Tag), FilterMap(Cleaner(layout), data[1..])))
  }

  /** Without a clash the Amount and Date the cleaner reads are the only
      columns with those names. */
  lemma ClashFreeLayout(columns: seq<string>)
    requires !Clashes(columns) && FindLayout(columns).Some?
    ensures forall i :: 0 <= i < |columns| && columns[i] == "Amount" ==> i == FindLayout(columns).value.amount
    ensures forall i :: 0 <= i < |columns| && columns[i] == "Date" ==> i == FindLayout(columns).value.date
  {
    forall i | 0 <= i < |columns| && columns[i] == "Amount" ensures i == FindLayout(columns).value.amount {
      UniqueColumn(columns, "Amount", i);
    }
    forall i | 0 <= i < |columns| && columns[i] == "Date" ensures i == FindLayout(columns).value.date {
      UniqueColumn(columns, "Date", i);
    }
  }

  /** The header names after stripping, as the cleaner looks them up. */
  function Columns(header: seq<Cell>): seq<string>
    requires forall i :: 0 <= i < |header| ==> header[i].Some?
  {
    seq(|header|, i requires 0 <= i < |header| => Strip(header[i].value))
  }

  /** A successful clean read a complete header naming the three columns,
      and wrote the surviving cleanings of the data rows. */
  lemma CleanSucceeded(folder: string, path: string, data: seq<Row>)
    requires Clean(folder, path, data).Success?
    ensures HeaderReadable(data) && !Clashes(Columns(data[0]))
    ensures FindLayout(Columns(data[0])).Some?
    ensures Clean(folder, path, data).value.rows == FilterMap(Cleaner(FindLayout(Columns(data[0])).value), data[1..])
  {
  }

  /** The written rows are the cleanings of the surviving data rows, in the
      order they were read. */
  lemma {:induction false} CleanRowsInOrder(folder: string, path: string, data: seq<Row>)
    requires Clean(folder, path, data).Success?
    ensures HeaderReadable(data)
    ensures FindLayout(Columns(data[0])).Some?
    ensures var layout := FindLayout(Columns(data[0])).value;
      var ix := Positions(Mask(Cleaner(layout), data[1..]));
      var out := Clean(folder, path, data).value.rows;
      && |out| == |ix|
      && forall k :: 0 <= k < |ix| ==> out[k] == CleanRow(layout, data[1..][ix[k]]).value
  {
    CleanSucceeded(folder, path, data);
    var layout := FindLayout(Columns(data[0])).value;
    var out := Clean(folder, path, data).value.rows;
    FilterMapIsSurvivors(Cleaner(layout), data[1..]);
    var ix := Positions(Mask(Cleaner(layout), data[1..]));
    forall k | 0 <= k < |ix|
      ensures out[k] == CleanRow(layout, data[1..][ix[k]]).value
    {
      assert out[k] == Cleaner(layout)(data[1..][ix[k]]).value;
    }
  }

  /** Without a Merchant column every row is attributed to "AMEX
      Transaction". */
  lemma DefaultMerchantEverywhere(folder: string, path: string, data: seq<Row>)
    requires Clean(folder, path, data).Success?
    requires HeaderReadable(data)
    requires "Merchant" !in Columns(data[0])
    ensures forall k :: 0 <= k < |Clean(folder, path, data).value.rows| ==>
      Clean(folder, path, data).value.rows[k].merchant == DefaultMerchant
  {
    var layout := FindLayout(Columns(data[0])).value;
    FilterMapAll(Cleaner(layout), data[1..], (r: Record) => r.merchant == DefaultMerchant);
  }

  /** A refund (negative amount) is written as an outflow of its magnitude. */
  lemma NegativeAmountIsOutflow(layout: Layout, row: Row, cents: int)
    requires cents < 0
    requires CleanRow(layout, row).Some?
    requires ParseAmount(AmountText(CellAt(row, layout.amount))) == Some(cents)
    ensures CleanRow(layout, row).value.outflow == -cents > 0
    ensures CleanRow(layout, row).value.inflow == 0
  {
  }

  /** Text as the statement shows it, `$1234.50`, reads as the amount it
      renders: a leading dollar sign is discarded. */
  lemma DollarAmountReads(cents: int, text: string)
    requires text == "$" + FormatCents(cents)
    ensures ParseAmount(AmountText(Some(text))) == Some(cents)
  {
    var body := FormatCents(cents);
    FormatCentsChars(cents);
    FormatCentsEnds(cents);
    AmountTextLeading(body, '$');
    AmountTextPlain(body);
    ParseFormatCents(cents);
  }

  lemma AmountTextLeading(b: string, ch: char)
    requires ch == '$' || ch == ','
    ensures AmountText(Some([ch] + b)) == AmountText(Some(b))
  {
    var empty: string := [];
    AmountTextDrops(empty, b, ch, [ch] + b, b);
  }

  /** A `$` anywhere in the rendering of an amount does not change how it
      reads: in front of it, after the minus of a refund (`-$12.00` reads
      as -1200 cents) or between its digits. */
  lemma DollarAnywhereReads(front: string, u: string, c: int, text: string)
    requires FormatCents(c) == front + u && text == front + ['$'] + u
    ensures ParseAmount(AmountText(Some(text))) == Some(c)
  {
    FormatCentsChars(c);
    FormatCentsEnds(c);
    AmountTextDrops(front, u, '$', text, front + u);
    AmountTextPlain(front + u);
    ParseFormatCents(c);
  }

  /** A thousands separator anywhere in the amount is discarded, so
      `$1,234.50` reads as 123450 cents. */
  lemma SeparatedAmountReads(cents: int, k: nat, text: string)
    requires k <= |FormatCents(cents)|
    requires text == "$" + FormatCents(cents)[..k] + "," + FormatCents(cents)[k..]
    ensures ParseAmount(AmountText(Some(text))) == Some(cents)
  {
    var s := FormatCents(cents);
    var front := "$" + s[..k];
    var back := s[k..];
    var joined := "$" + s;
    assert front + back == joined by {
      assert s[..k] + s[k..] == s;
    }
    AmountTextDrops(front, back, ',', text, joined);
    DollarAmountReads(cents, joined);
  }

  /** Blanks around the cell's text are stripped after the symbols go, so
      ` $1234.50 ` reads like `1234.50`. */
  lemma PaddedAmountReads(a: string, b: string, cents: int, text: string)
    requires AllSpace(a) && AllSpace(b)
    requires text == a + "$" + FormatCents(cents) + b
    ensures ParseAmount(AmountText(Some(text))) == Some(cents)
  {
    var body := FormatCents(cents);
    assert text == a + ['$'] + (body + b);
    assert a + body + b == a + (body + b);
    AmountTextDrops(a, body + b, '$', text, a + body + b);
    FormatCentsChars(cents);
    FormatCentsEnds(cents);
    AmountTextPadded(a, body, b);
    ParseFormatCents(cents);
  }

  lemma AmountTextPadded(a: string, body: string, b: string)
    requires AllSpace(a) && AllSpace(b)
    requires forall i :: 0 <= i < |body| ==> NumberChar(body[i])
    requires body != [] && !IsSpace(body[0]) && !IsSpace(body[|body| - 1])
    ensures AmountText(Some(a + body + b)) == body
  {
    var plain := a + body + b;
    assert '$' !in plain && ',' !in plain by {
      forall i | 0 <= i < |plain| ensures plain[i] != '$' && plain[i] != ',' {
        if i < |a| {
          assert IsSpace(a[i]);
        } else if i < |a| + |body| {
          assert NumberChar(body[i - |a|]);
        } else {
          assert IsSpace(b[i - |a| - |body|]);
        }
      }
    }
    RemoveCharAbsent(plain, '$');
    RemoveCharAbsent(plain, ',');
    StripPadded(a, body, b);
  }

  /** The amount cleaning discards a `$` or a `,` wherever it stands. */
  lemma AmountTextDrops(a: string, b: string, ch: char, x: string, y: string)
    requires ch == '$' || ch == ','
    requires x == a + [ch] + b && y == a + b
    ensures AmountText(Some(x)) == AmountText(Some(y))
  {
    assert CellText(Some(x)) == x;
    assert CellText(Some(y)) == y;
    SymbolsDropped(a, b, ch);
  }

  lemma SymbolsDropped(a: string, b: string, ch: char)
    requires ch == '$' || ch == ','
    ensures RemoveChar(RemoveChar(a + [ch] + b, '$'), ',') == RemoveChar(RemoveChar(a + b, '$'), ',')
  {
    var one: string := [ch];
    var o1 := RemoveChar(one, '$');
    assert RemoveChar(o1, ',') == [] by {
      var empty: string := [];
      assert one[1..] == empty;
      assert RemoveChar(empty, '$') == empty && RemoveChar(empty, ',') == empty;
      if ch == ',' {
        assert o1 == [ch] + RemoveChar(empty, '$');
        assert o1[1..] == empty;
        assert RemoveChar(o1, ',') == RemoveChar(empty, ',');
      } else {
        assert o1 == RemoveChar(empty, '$');
      }
    }
    RemoveCharAppend(a + one, b, '$');
    RemoveCharAppend(a, one, '$');
    RemoveCharAppend(a, b, '$');
    var a1 := RemoveChar(a, '$');
    var b1 := RemoveChar(b, '$');
    assert RemoveChar(a + one + b, '$') == a1 + o1 + b1;
    assert RemoveChar(a + b, '$') == a1 + b1;
    RemoveCharAppend(a1 + o1, b1, ',');
    RemoveCharAppend(a1, o1, ',');
    RemoveCharAppend(a1, b1, ',');
  }

  /** Number text without blanks at either end passes the amount cleaning
      unchanged. */
  lemma AmountTextPlain(body: string)
    requires forall i :: 0 <= i < |body| ==> NumberChar(body[i])
    requires body != [] && !IsSpace(body[0]) && !IsSpace(body[|body| - 1])
    ensures AmountText(Some(body)) == body
  {
    assert '$' !in body && ',' !in body by {
      forall i | 0 <= i < |body| ensures body[i] != '$' && body[i] != ',' {
        assert NumberChar(body[i]);
      }
    }
    RemoveCharAbsent(body, '$');
    RemoveCharAbsent(body, ',');
    StripPadded("", body, "");
    assert "" + body + "" == body;
  }

  lemma FormatCentsChars(cents: int)
    ensures forall i :: 0 <= i < |FormatCents(cents)| ==> NumberChar(FormatCents(cents)[i])
  {
    ParseFormatCents(cents);
  }

  lemma FormatCentsEnds(cents: int)
    ensures var s := FormatCents(cents);
      s != [] && !IsSpace(s[0]) && !IsSpace(s[|s| - 1])
  {
    FormatCentsChars(cents);
  }

  lemma {:induction false} RemoveDot(a: string, b: string)
    requires '.' !in a && '.' !in b
    ensures RemoveChar(a + ['.'] + b, '.') == a + b
  {
    var dot: string := ['.'];
    var ad := a + dot;
    assert RemoveChar(dot, '.') == [] by {
      assert dot[1..] == [];
    }
    RemoveCharAppend(a, dot, '.');
    RemoveCharAbsent(a, '.');
    assert RemoveChar(ad, '.') == a;
    RemoveCharAppend(ad, b, '.');
    RemoveCharAbsent(b, '.');
    assert RemoveChar(ad + b, '.') == a + b;
  }

  /** Dropping the dot after the month leaves the undotted form. */
  lemma {:induction false} RemoveMonthDot(x: string, mon: string, y: string)
    requires '.' !in x && '.' !in mon && '.' !in y
    ensures RemoveChar(x + " " + mon + ". " + y, '.') == x + " " + mon + " " + y
  {
    var sp: string := [' '];
    var a := x + sp + mon;
    var b := sp + y;
    assert x + " " + mon + ". " + y == a + ['.'] + b;
    RemoveDot(a, b);
    assert a + b == x + sp + mon + sp + y;
  }

  lemma NoDotInDigits(d: Date)
    requires Representable(d)
    ensures '.' !in Digits.PadDigits(d.day, 2)
    ensures '.' !in Digits.PadDigits(d.year, 4)
    ensures '.' !in MonthAbbreviations[d.month - 1]
  {
    NoDotPadded(d.day, 2);
    NoDotPadded(d.year, 4);
  }

  lemma NoDotPadded(n: nat, w: nat)
    requires n < Digits.Pow10(w)
    ensures '.' !in Digits.PadDigits(n, w)
  {
    var s := Digits.PadDigits(n, w);
    assert forall i :: 0 <= i < |s| ==> Digits.IsDigit(s[i]);
  }

  /** AMEX writes dates as `15 Jan. 2024`; removing the dot makes them
      readable with `%d %b %Y`. */
  lemma {:induction false} DottedDateReads(d: Date)
    requires Representable(d)
    ensures var dd := Digits.PadDigits(d.day, 2);
      var yy := Digits.PadDigits(d.year, 4);
      ParseDayMonthYear(DateText(Some(dd + " " + MonthAbbreviations[d.month - 1] + ". " + yy))) == Some(d)
  {
    NoDotInDigits(d);
    RemoveMonthDot(Digits.PadDigits(d.day, 2), MonthAbbreviations[d.month - 1], Digits.PadDigits(d.year, 4));
    ParseFormatDayMonthYear(d);
  }

  /** A zero amount is not filtered: the row is written with both sides
      zero. */
  lemma ZeroAmountKept(layout: Layout, row: Row)
    requires !AllEmpty(row)
    requires ParseAmount(AmountText(CellAt(row, layout.amount))) == Some(0)
    requires ParseDayMonthYear(DateText(CellAt(row, layout.date))).Some?
    requires CellAt(row, layout.description).Some? && MerchantCell(layout, row).Some?
    ensures CleanRow(layout, row).Some?
    ensures CleanRow(layout, row).value.inflow == 0 && CleanRow(layout, row).value.outflow == 0
  {
  }
}

=== FILE: canonical.dfy ===
/** What the bank adapters share: the raw cells they read, the cleaned
    record they write, and row filtering that keeps input order. */
module Canonical {
  import opened Wrappers
  import opened Dates

  /** A spreadsheet or CSV cell as text; None is an empty (NaN) cell. */
  type Cell = Option<string>

  type Row = seq<Cell>

  /** One line of a cleaned output file, columns
      Date, Description, Inflow, Outflow, Source, Merchant. */
  datatype Record = Record(date: Date, description: string, inflow: int, outflow: int, source: string, merchant: string)

  const OutputColumns: seq<string> := ["Date", "Description", "Inflow", "Outflow", "Source", "Merchant"]

  /** A cleaned file: where it is written and what it holds. */
  datatype Output = Output(path: string, rows: seq<Record>)

  datatype CleanError = UnreadableHeader | MissingColumn | DuplicateColumn | FormatMismatch

  /** The cell of a row in a column; a row shorter than the header reads
      as empty there. */
  function CellAt(row: Row, i: nat): Cell {
    if i < |row| then row[i] else None
  }

  /** `str(cell)`: an empty cell renders as the text "None". */
  function CellText(c: Cell): string {
    c.GetOr("None")
  }

  /** Position of the first column with the given name. */
  function ColumnIndex(columns: seq<string>, name: string): (r: Option<nat>)
    ensures r.Some? ==> r.value < |columns| && columns[r.value] == name
    ensures r.None? ==> name !in columns
  {
    if columns == [] then None
    else if columns[0] == name then Some(0)
    else
      match ColumnIndex(columns[1..], name)
      case None => None
      case Some(k) => Some(k + 1)
  }

  /** Two columns carry the name, so selecting it gives a frame, not a
      column. */
  predicate Repeated(columns: seq<string>, name: string) {
    exists i, j :: 0 <= i < j < |columns| && columns[i] == name && columns[j] == name
  }

  /** Two different positions holding one name make it repeated. */
  lemma TwoPositions(columns: seq<string>, name: string, i: nat, k: nat)
    requires i < |columns| && k < |columns|
    ensures i != k && columns[i] == name && columns[k] == name ==> Repeated(columns, name)
  {
    if columns[i] == name && columns[k] == name {
      if i < k {
        assert columns[i] == name && columns[k] == name;
      } else if k < i {
        assert columns[k] == name && columns[i] == name;
      }
    }
  }

  /** A name that is not repeated is found where it is. */
  lemma UniqueColumn(columns: seq<string>, name: string, i: nat)
    requires i < |columns| && columns[i] == name && !Repeated(columns, name)
    ensures ColumnIndex(columns, name) == Some(i)
  {
    TwoPositions(columns, name, i, ColumnIndex(columns, name).value);
  }

  /** Clean every row, keeping those that survive, in input order. */
  function FilterMap<T, U>(f: T -> Option<U>, s: seq<T>): (r: seq<U>)
    ensures |r| <= |s|
  {
    if s == [] then []
    else (match f(s[0]) case Some(x) => [x] case None => []) + FilterMap(f, s[1..])
  }

  /** Positions, in increasing order, of the true entries of a mask. */
  function Positions(mask: seq<bool>): (ix: seq<nat>)
    ensures forall k :: 0 <= k < |ix| ==> ix[k] < |mask| && mask[ix[k]]
    ensures forall k, l :: 0 <= k < l < |ix| ==> ix[k] < ix[l]
    ensures forall i :: 0 <= i < |mask| && mask[i] ==> i in ix
  {
    if mask == [] then []
    else
      ConsPositions(mask, Positions(mask[1..]))
  }

  /** `ix` lists, in increasing order, exactly the true positions of `mask`. */
  predicate PositionsOf(mask: seq<bool>, ix: seq<nat>) {
    && (forall k :: 0 <= k < |ix| ==> ix[k] < |mask| && mask[ix[k]])
    && (forall k, l :: 0 <= k < l < |ix| ==> ix[k] < ix[l])
    && (forall i :: 0 <= i < |mask| && mask[i] ==> i in ix)
  }

  /** `sh` lists, in increasing order, exactly the true positions of `mask`
      after position 0. */
  predicate LaterPositionsOf(mask: seq<bool>, sh: seq<nat>) {
    && (forall k :: 0 <= k < |sh| ==> 0 < sh[k] < |mask| && mask[sh[k]])
    && (forall k, l :: 0 <= k < l < |sh| ==> sh[k] < sh[l])
    && (forall i :: 1 <= i < |mask| && mask[i] ==> i in sh)
  }

  /** The positions of a mask from those of its tail: moved one place
      right, behind position 0 when it is set. */
  function ConsPositions(mask: seq<bool>, rest: seq<nat>): (ix: seq<nat>)
    requires mask != [] && PositionsOf(mask[1..], rest)
    ensures PositionsOf(mask, ix)
  {
    var shifted := Shift(rest);
    ShiftProps(mask, rest);
    if mask[0] then
      ConsZero(mask, shifted);
      [0] + shifted
    else
      ConsSkip(mask, shifted);
      shifted
  }

  /** Position 0 in front of positions that are all later than 0. */
  lemma ConsZero(mask: seq<bool>, sh: seq<nat>)
    requires mask != [] && mask[0] && LaterPositionsOf(mask, sh)
    ensures PositionsOf(mask, [0] + sh)
  {
    var ix := [0] + sh;
    forall k | 0 < k < |ix| ensures ix[k] == sh[k - 1] {
    }
    forall k, l | 0 <= k < l < |ix| ensures ix[k] < ix[l] {
      if k > 0 {
        assert ix[k] == sh[k - 1];
      }
    }
    forall i | 0 <= i < |mask| && mask[i] ensures i in ix {
      if i > 0 {
        var k :| 0 <= k < |sh| && sh[k] == i;
        assert ix[k + 1] == i;
      }
    }
  }

  /** Without position 0, the positions are those later than 0. */
  lemma ConsSkip(mask: seq<bool>, sh: seq<nat>)
    requires mask != [] && !mask[0] && LaterPositionsOf(mask, sh)
    ensures PositionsOf(mask, sh)
  {
  }

  /** Every position moved one place right. */
  function Shift(rest: seq<nat>): (r: seq<nat>)
    ensures |r| == |rest| && forall k :: 0 <= k < |r| ==> r[k] == rest[k] + 1
  {
    seq(|rest|, k requires 0 <= k < |rest| => rest[k] + 1)
  }

  lemma ShiftProps(mask: seq<bool>, rest: seq<nat>)
    requires mask != [] && PositionsOf(mask[1..], rest)
    ensures LaterPositionsOf(mask, Shift(rest))
  {
    var sh := Shift(rest);
    forall i | 1 <= i < |mask| && mask[i] ensures i in sh {
      assert mask[1..][i - 1] == mask[i];
      var k :| 0 <= k < |rest| && rest[k] == i - 1;
      assert sh[k] == i;
    }
    forall k | 0 <= k < |sh| ensures 0 < sh[k] < |mask| && mask[sh[k]] {
      assert mask[1..][rest[k]] == mask[rest[k] + 1];
    }
  }

  function Mask<T, U>(f: T -> Option<U>, s: seq<T>): (m: seq<bool>)
    ensures |m| == |s| && forall i :: 0 <= i < |s| ==> m[i] == f(s[i]).Some?
  {
    seq(|s|, i requires 0 <= i < |s| => f(s[i]).Some?)
  }

  /** The rows an adapter writes are exactly the cleanings of the rows that
      survive, in the order the rows were read. */
  lemma {:induction false} FilterMapIsSurvivors<T, U>(f: T -> Option<U>, s: seq<T>)
    ensures var ix := Positions(Mask(f, s));
      var r := FilterMap(f, s);
      |r| == |ix| && forall k :: 0 <= k < |ix| ==> r[k] == f(s[ix[k]]).value
  {
    if s != [] {
      var m := Mask(f, s);
      assert m[1..] == Mask(f, s[1..]);
      var rest := Positions(m[1..]);
      var tail := FilterMap(f, s[1..]);
      FilterMapIsSurvivors(f, s[1..]);
      SurvivorsStep(f, s, rest, tail);
      var sh := Shift(rest);
      var ix := Positions(m);
      var r := FilterMap(f, s);
      if m[0] {
        assert ix == [0] + sh;
        assert r == [f(s[0]).value] + tail;
        forall k | 0 <= k < |ix| ensures r[k] == f(s[ix[k]]).value {
          if k > 0 {
            assert ix[k] == sh[k - 1] && r[k] == tail[k - 1];
          }
        }
      } else {
        assert ix == sh;
        assert r == tail;
      }
    }
  }

  lemma SurvivorsStep<T, U>(f: T -> Option<U>, s: seq<T>, rest: seq<nat>, tail: seq<U>)
    requires s != [] && |tail| == |rest|
    requires forall k :: 0 <= k < |rest| ==> rest[k] < |s| - 1 && f(s[1..][rest[k]]).Some? && tail[k] == f(s[1..][rest[k]]).value
    ensures var sh := Shift(rest);
      forall k :: 0 <= k < |sh| ==> sh[k] < |s| && tail[k] == f(s[sh[k]]).value
  {
    var sh := Shift(rest);
    forall k | 0 <= k < |sh| ensures sh[k] < |s| && tail[k] == f(s[sh[k]]).value {
      assert s[1..][rest[k]] == s[rest[k] + 1];
    }
  }

  lemma {:induction false} FilterMapAll<T, U>(f: T -> Option<U>, s: seq<T>, P: U -> bool)
    requires forall x :: x in s && f(x).Some? ==> P(f(x).value)
    ensures forall k :: 0 <= k < |FilterMap(f, s)| ==> P(FilterMap(f, s)[k])
  {
    if s != [] {
      assert forall x :: x in s[1..] ==> x in s;
      FilterMapAll(f, s[1..], P);
    }
  }
}

=== FILE: categorizer.dfy ===
/** Keyword categorisation of transactions and keyword learning
    (categorize_transactions and add_keyword_to_category in main.py). */
module Categorizer {
  import opened Wrappers
  import opened Text
  import opened Frames

  /** Category name -> keyword list, in the dict's insertion order. */
  type Table = seq<(string, seq<string>)>

  const Uncategorized: string := "Uncategorized"

  predicate UniqueNames(t: Table) {
    forall i, j :: 0 <= i < j < |t| ==> t[i].0 != t[j].0
  }

  /** `text.lower().strip()`, applied to merchants and keywords alike. */
  function Normalize(text: string): string {
    Strip(Lower(text))
  }

  /** Normalised text has no outer whitespace and no upper-case ASCII
      letter. */
  lemma NormalizeShape(text: string)
    ensures var r := Normalize(text);
      && (r == [] || (!IsSpace(r[0]) && !IsSpace(r[|r| - 1])))
      && forall i :: 0 <= i < |r| ==> !('A' <= r[i] <= 'Z')
  {
    var l := Lower(text);
    var r := Strip(l);
    StripShape(l);
    StripKeepsChars(l);
    forall i | 0 <= i < |r| ensures !('A' <= r[i] <= 'Z') {
      assert r[i] in l;
      var j :| 0 <= j < |l| && l[j] == r[i];
    }
  }

  /** An entry takes part in matching: not the reserved category, and it
      has at least one keyword. */
  predicate Active(entry: (string, seq<string>)) {
    entry.0 != Uncategorized && entry.1 != []
  }

  predicate EntryMatches(entry: (string, seq<string>), merchant: string) {
    Active(entry) && exists k | k in entry.1 :: Contains(Normalize(merchant), Normalize(k))
  }

  /** The loop of categorize_transactions for one row: entries are visited
      in order and each match overwrites the category chosen so far. */
  function Assign(t: Table, merchant: string, current: string): string {
    if t == [] then current
    else Assign(t[1..], merchant, if EntryMatches(t[0], merchant) then t[0].0 else current)
  }

  function CategoryOf(t: Table, merchant: string): string {
    Assign(t, merchant, Uncategorized)
  }

  /** Index of the last matching entry, if any. */
  function LastMatch(t: Table, merchant: string): (r: Option<nat>)
    ensures r.Some? ==>
      && r.value < |t| && EntryMatches(t[r.value], merchant)
      && forall j :: r.value < j < |t| ==> !EntryMatches(t[j], merchant)
    ensures r.None? ==> forall j :: 0 <= j < |t| ==> !EntryMatches(t[j], merchant)
  {
    LastMatchBelow(t, merchant, |t|)
  }

  /** Index of the last matching entry among the first `n`, if any. */
  function LastMatchBelow(t: Table, merchant: string, n: nat): (r: Option<nat>)
    requires n <= |t|
    ensures r.Some? ==>
      && r.value < n && EntryMatches(t[r.value], merchant)
      && forall j :: r.value < j < n ==> !EntryMatches(t[j], merchant)
    ensures r.None? ==> forall j :: 0 <= j < n ==> !EntryMatches(t[j], merchant)
  {
    if n == 0 then None
    else if EntryMatches(t[n - 1], merchant) then Some(n - 1)
    else LastMatchBelow(t, merchant, n - 1)
  }

  lemma {:induction false} AssignLast(t: Table, merchant: string, current: string)
    ensures Assign(t, merchant, current) ==
      match LastMatch(t, merchant)
      case Some(i) => t[i].0
      case None => current
  {
    if t != [] {
      var last := t[|t| - 1];
      var front := t[..|t| - 1];
      AssignSnoc(front, last, merchant, current);
      assert t == front + [last];
      AssignLast(front, merchant, current);
      assert forall j :: 0 <= j < |front| ==> front[j] == t[j];
    }
  }

  lemma {:induction false} AssignSnoc(front: Table, last: (string, seq<string>), merchant: string, current: string)
    ensures Assign(front + [last], merchant, current) ==
      var before := Assign(front, merchant, current);
      if EntryMatches(last, merchant) then last.0 else before
  {
    if front == [] {
      assert front + [last] == [last];
    } else {
      assert (front + [last])[1..] == front[1..] + [last];
      AssignSnoc(front[1..], last, merchant, if EntryMatches(front[0], merchant) then front[0].0 else current);
    }
  }

  /** When two entries both match, the later one wins. */
  lemma LaterMatchWins(t: Table, merchant: string, i: nat, j: nat)
    requires UniqueNames(t)
    requires i < j < |t| && EntryMatches(t[i], merchant) && EntryMatches(t[j], merchant)
    ensures CategoryOf(t, merchant) != t[i].0
  {
    AssignLast(t, merchant, Uncategorized);
  }

  /** The category a merchant receives is the name of the LAST matching
      entry in table order, and "Uncategorized" exactly when no entry
      matches. */
  lemma CategoryOfIsLastMatch(t: Table, merchant: string)
    ensures LastMatch(t, merchant).Some? ==> CategoryOf(t, merchant) == t[LastMatch(t, merchant).value].0
    ensures CategoryOf(t, merchant) != Uncategorized <==> exists i :: 0 <= i < |t| && EntryMatches(t[i], merchant)
  {
    AssignLast(t, merchant, Uncategorized);
  }

  /** A keyword made only of whitespace normalises to the empty text, which
      occurs in every merchant text, so its category captures every row no
      later entry claims. */
  lemma BlankKeywordMatchesAll(t: Table, i: nat, k: string, merchant: string)
    requires i < |t| && t[i].0 != Uncategorized && k in t[i].1 && AllSpace(k)
    ensures EntryMatches(t[i], merchant)
  {
    var l := Lower(k);
    assert AllSpace(l) by {
      forall j | 0 <= j < |l| ensures IsSpace(l[j]) {
        assert l[j] == LowerChar(k[j]);
      }
    }
    AllSpaceStrips(l);
    assert IsPrefix(Normalize(k), Normalize(merchant)[0..]);
  }

  /** `str(row["Merchant"])`: a NaN merchant is the text "nan". */
  function MerchantText(r: Txn): string {
    r.merchant.GetOr("nan")
  }

  datatype CategorizeError = MissingMerchantColumn

  /** Whether the matching loop ever reads a row's Merchant. */
  predicate ReadsMerchant(f: Frame, t: Table) {
    f.rows != [] && exists e | e in t :: Active(e)
  }

  /** categorize_transactions: every row's Category is reset, then set by
      the table. Reading Merchant from a frame without that column raises
      KeyError. */
  function Categorize(f: Frame, t: Table): (r: Result<Frame, CategorizeError>)
    ensures r.Failure? <==> MerchantColumn !in f.columns && ReadsMerchant(f, t)
    ensures r.Success? ==>
      && r.value.columns == f.columns + {CategoryColumn}
      && |r.value.rows| == |f.rows|
      && forall i :: 0 <= i < |f.rows| ==>
           r.value.rows[i].(category := f.rows[i].category) == f.rows[i]
           && r.value.rows[i].category == Some(CategoryOf(t, MerchantText(f.rows[i])))
  {
    if MerchantColumn !in f.columns && ReadsMerchant(f, t) then Failure(MissingMerchantColumn)
    else
      Success(Frame(f.columns + {CategoryColumn},
        seq(|f.rows|, i requires 0 <= i < |f.rows| =>
          f.rows[i].(category := Some(CategoryOf(t, MerchantText(f.rows[i])))))))
  }

  /** Categorising adds the Category column, so a well-formed frame stays
      well-formed. */
  lemma CategorizeWellFormed(f: Frame, t: Table)
    requires WellFormed(f) && Categorize(f, t).Success?
    ensures WellFormed(Categorize(f, t).value)
  {
    var g := Categorize(f, t).value;
    forall r | r in g.rows ensures RowFits(g.columns, r) {
      var i :| 0 <= i < |g.rows| && g.rows[i] == r;
      assert RowFits(f.columns, f.rows[i]);
    }
  }

  /** Categorising depends on nothing but the merchant and the table:
      running it again on its own output changes nothing, and rows with the
      same merchant get the same category. */
  lemma CategorizeIdempotent(f: Frame, t: Table)
    requires Categorize(f, t).Success?
    ensures Categorize(Categorize(f, t).value, t) == Categorize(f, t)
  {
    var g := Categorize(f, t).value;
    assert ReadsMerchant(g, t) <==> ReadsMerchant(f, t);
    var h := Categorize(g, t).value;
    assert h.rows == g.rows;
  }

  lemma CategorizeSameMerchant(f: Frame, t: Table, i: nat, j: nat)
    requires Categorize(f, t).Success?
    requires i < |f.rows| && j < |f.rows| && f.rows[i].merchant == f.rows[j].merchant
    ensures Categorize(f, t).value.rows[i].category == Categorize(f, t).value.rows[j].category
  {
  }

  // ---------------------------------------------------------------------
  // Learning

  function IndexOf(t: Table, name: string): (r: Option<nat>)
    ensures r.Some? ==>
      && r.value < |t| && t[r.value].0 == name
      && forall j :: 0 <= j < r.value ==> t[j].0 != name
    ensures r.None? ==> forall j :: 0 <= j < |t| ==> t[j].0 != name
  {
    if t == [] then None
    else if t[0].0 == name then Some(0)
    else
      match IndexOf(t[1..], name)
      case None => None
      case Some(k) => Some(k + 1)
  }

  predicate HasCategory(t: Table, name: string) {
    exists i :: 0 <= i < |t| && t[i].0 == name
  }

  datatype Learned = Learned(added: bool, table: Table)

  datatype LearnError = UnknownCategory

  /** add_keyword_to_category: the stripped keyword is appended to the
      category's list unless it is blank or already listed (compared
      exactly, case included). A blank keyword short-circuits the test, so
      the category is not looked up; otherwise an unknown category raises
      KeyError. */
  function AddKeyword(t: Table, category: string, keyword: string): (r: Result<Learned, LearnError>)
    ensures r.Failure? <==> Strip(keyword) != [] && !HasCategory(t, category)
    ensures r.Success? && Strip(keyword) == [] ==> r.value == Learned(false, t)
    ensures r.Success? && Strip(keyword) != [] ==>
      var k := Strip(keyword);
      var i := IndexOf(t, category).value;
      && (r.value.added <==> k !in t[i].1)
      && (r.value.added ==> r.value.table == t[i := (category, t[i].1 + [k])])
      && (!r.value.added ==> r.value.table == t)
  {
    var k := Strip(keyword);
    if k == [] then Success(Learned(false, t))
    else
      match IndexOf(t, category)
      case None => Failure(UnknownCategory)
      case Some(i) =>
        if k !in t[i].1 then Success(Learned(true, t[i := (category, t[i].1 + [k])]))
        else Success(Learned(false, t))
  }

  /** A blank keyword is refused even for a category the table lacks. */
  lemma BlankKeywordIgnored(t: Table, category: string, keyword: string)
    requires AllSpace(keyword)
    ensures AddKeyword(t, category, keyword) == Success(Learned(false, t))
  {
    AllSpaceStrips(keyword);
  }

  /** Learning the same keyword twice: the second call adds nothing. */
  lemma AddKeywordRepeat(t: Table, category: string, keyword: string)
    requires AddKeyword(t, category, keyword).Success?
    ensures var t1 := AddKeyword(t, category, keyword).value.table;
      AddKeyword(t1, category, keyword) == Success(Learned(false, t1))
  {
    var r := AddKeyword(t, category, keyword).value;
    var t1 := r.table;
    if r.added {
      var i := IndexOf(t, category).value;
      assert t1[i].0 == category;
      assert forall j :: 0 <= j < i ==> t1[j] == t[j];
      assert IndexOf(t1, category) == Some(i);
      assert Strip(keyword) in t1[i].1;
    }
  }

  /** Learning never removes or reorders a keyword, never renames or moves
      a category, and keeps category names unique. */
  lemma AddKeywordKeeps(t: Table, category: string, keyword: string)
    requires AddKeyword(t, category, keyword).Success?
    ensures var t1 := AddKeyword(t, category, keyword).value.table;
      && |t1| == |t|
      && (forall j :: 0 <= j < |t| ==> t1[j].0 == t[j].0 && t[j].1 <= t1[j].1)
      && (UniqueNames(t) ==> UniqueNames(t1))
  {
  }
}

=== FILE: cibc.dfy ===
/** The CIBC export cleaner (clean_cibc_csv in cibc_watcher.py): the first
    four columns are read by position as Date, Description, Outflow and
    Inflow, whatever the header says. */
module Cibc {
  import opened Wrappers
  import opened Money
  import opened Dates
  import opened Canonical
  import Paths
  import Text

  const Source: string := "CIBC"
  const Tag: string := "cibc"

  const DateAt: nat := 0
  const DescriptionAt: nat := 1
  const OutflowAt: nat := 2
  const InflowAt: nat := 3

  /** `to_numeric(errors="coerce").fillna(0)`: an empty cell and text that
      is not a plain number both count as zero. */
  function CoerceAmount(c: Cell): (v: int)
    ensures v != 0 ==> c.Some? && ParseAmount(c.value) == Some(v)
    ensures c.Some? && ParseAmount(c.value).Some? ==> v == ParseAmount(c.value).value
  {
    match c
    case None => 0
    case Some(t) => ParseAmount(t).GetOr(0)
  }

  /** `to_datetime(errors="coerce")`; None stands for NaT. */
  function CellDate(c: Cell): (d: Option<Date>)
    ensures d.Some? ==> c.Some?
    ensures c.Some? ==> d == ParseIsoDate(c.value)
  {
    match c
    case None => None
    case Some(t) => ParseIsoDate(t)
  }

  /** One CSV line: dropped when both amounts are zero, then when the date
      is NaT or the description empty. Both amounts are written as read,
      sign included, and the description doubles as the merchant. */
  function CleanRow(row: Row): (r: Option<Record>)
    ensures r.Some? <==>
      && (CoerceAmount(CellAt(row, OutflowAt)) != 0 || CoerceAmount(CellAt(row, InflowAt)) != 0)
      && CellDate(CellAt(row, DateAt)).Some?
      && CellAt(row, DescriptionAt).Some?
    ensures r.Some? ==>
      && r.value.outflow == CoerceAmount(CellAt(row, OutflowAt))
      && r.value.inflow == CoerceAmount(CellAt(row, InflowAt))
      && r.value.date == CellDate(CellAt(row, DateAt)).value
      && Some(r.value.description) == CellAt(row, DescriptionAt)
      && r.value.merchant == r.value.description
      && r.value.source == Source
  {
    var outflow := CoerceAmount(CellAt(row, OutflowAt));
    var inflow := CoerceAmount(CellAt(row, InflowAt));
    if outflow == 0 && inflow == 0 then None
    else
      var date := CellDate(CellAt(row, DateAt));
      var description := CellAt(row, DescriptionAt);
      if date.Some? && description.Some? then
        Some(Record(date.value, description.value, inflow, outflow, Source, description.value))
      else None
  }

  /** What every written CIBC line satisfies. */
  predicate IsCibcLine(r: Record) {
    (r.inflow != 0 || r.outflow != 0) && r.source == Source && r.merchant == r.description
  }

  function Cleaner(): Row -> Option<Record> {
    (row: Row) => CleanRow(row)
  }

  /** The four names the cleaner reads, in the positions it gives them. */
  const Targets: seq<string> := ["Date", "Description", "Outflow", "Inflow"]

  /** The header names as `read_csv` reports them, each stripped. */
  function Stripped(header: seq<string>): (names: seq<string>)
    ensures |names| == |header|
  {
    seq(|header|, i requires 0 <= i < |header| => Text.Strip(header[i]))
  }

  /** `rename` with the mapping built from the first four names: every
      column carrying one of them is relabelled, and a name shared by
      several of them takes the entry written last in the mapping. */
  function RenamedName(names: seq<string>, c: string): string
    requires |names| >= 4
  {
    if c == names[3] then Targets[3]
    else if c == names[2] then Targets[2]
    else if c == names[1] then Targets[1]
    else if c == names[0] then Targets[0]
    else c
  }

  function Renamed(names: seq<string>): (out: seq<string>)
    requires |names| >= 4
    ensures |out| == |names|
  {
    seq(|names|, i requires 0 <= i < |names| => RenamedName(names, names[i]))
  }

  /** After renaming, each of the four names labels exactly one column; a
      name that is missing or repeated makes a later column access raise. */
  predicate Resolves(names: seq<string>) {
    forall k :: 0 <= k < |Targets| ==> Targets[k] in names && !Repeated(names, Targets[k])
  }

  /** clean_cibc_csv on a file whose header has the given names and whose
      remaining lines are `rows`: fewer than four columns is reported, a
      header whose renaming leaves one of the four names on several columns
      raises, and in both cases nothing is written. */
  function Clean(folder: string, path: string, header: seq<string>, rows: seq<Row>): (r: Result<Output, CleanError>)
    ensures r == Failure(FormatMismatch) <==> |header| < 4
    ensures r == Failure(DuplicateColumn) <==> |header| >= 4 && !Resolves(Renamed(Stripped(header)))
    ensures r.Success? ==>
      && r.value.path == Paths.OutputPath(folder, path, Tag)
      && |r.value.rows| <= |rows|
      && forall k :: 0 <= k < |r.value.rows| ==> IsCibcLine(r.value.rows[k])
  {
    if |header| < 4 then Failure(FormatMismatch)
    else if !Resolves(Renamed(Stripped(header))) then Failure(DuplicateColumn)
    else
      FilterMapAll(Cleaner(), rows, IsCibcLine);
      Success(Output(Paths.OutputPath(folder, path, Tag), FilterMap(Cleaner(), rows)))
  }

  /** Two of the first four names agreeing relabel two columns alike. */
  lemma SameNameRenamedAlike(names: seq<string>, a: nat, b: nat)
    requires a < b < 4 <= |names|
    ensures RenamedName(names, names[a]) in Targets
    ensures names[a] == names[b] ==> Repeated(Renamed(names), RenamedName(names, names[a]))
  {
    var out := Renamed(names);
    if names[a] == names[b] {
      assert out[a] == out[b];
    }
  }

  /** When the renaming resolves, reading the four columns by position is
      reading them by name: the first four columns carry Date, Description,
      Outflow and Inflow, and no later column carries any of them. */
  lemma ReadByPosition(names: seq<string>)
    requires |names| >= 4 && Resolves(Renamed(names))
    ensures forall k :: 0 <= k < 4 ==> Renamed(names)[k] == Targets[k]
    ensures forall j :: 4 <= j < |names| ==> Renamed(names)[j] !in Targets
  {
    var out := Renamed(names);
    forall a, b | 0 <= a < b < 4 ensures names[a] != names[b] {
      SameNameRenamedAlike(names, a, b);
    }
    assert forall k :: 0 <= k < 4 ==> out[k] == Targets[k];
    forall j | 4 <= j < |names| ensures out[j] !in Targets {
      forall k | 0 <= k < 4 ensures out[j] != Targets[k] {
        TwoPositions(out, Targets[k], k, j);
      }
    }
  }

  /** The written lines are the cleanings of the surviving input lines, in
      the order they were read. */
  lemma {:induction false} CleanRowsInOrder(folder: string, path: string, header: seq<string>, rows: seq<Row>)
    requires Clean(folder, path, header, rows).Success?
    ensures var ix := Positions(Mask(Cleaner(), rows));
      var out := Clean(folder, path, header, rows).value.rows;
      && |out| == |ix|
      && forall k :: 0 <= k < |ix| ==> out[k] == CleanRow(rows[ix[k]]).value
  {
    var out := Clean(folder, path, header, rows).value.rows;
    assert out == FilterMap(Cleaner(), rows);
    FilterMapIsSurvivors(Cleaner(), rows);
    var ix := Positions(Mask(Cleaner(), rows));
    forall k | 0 <= k < |ix|
      ensures out[k] == CleanRow(rows[ix[k]]).value
    {
      assert out[k] == Cleaner()(rows[ix[k]]).value;
    }
  }

  /** A line is dropped exactly when it cleans to nothing: both amounts
      zero, an unreadable date, or no description. */
  lemma {:induction false} DroppedLines(rows: seq<Row>, i: nat)
    requires i < |rows|
    ensures CleanRow(rows[i]).Some? <==> i in Positions(Mask(Cleaner(), rows))
  {
    var m := Mask(Cleaner(), rows);
    assert m[i] == CleanRow(rows[i]).Some?;
  }

  /** An amount written with a thousands separator or a dollar sign does
      not parse and counts as zero. */
  lemma SeparatedAmountIsZero(t: string)
    requires ',' in t || '$' in t
    ensures CoerceAmount(Some(t)) == 0
  {
    ParseRejectsSymbols(t);
  }

  /** A line whose two amounts both carry a thousands separator is dropped,
      however large the amounts. */
  lemma SeparatedLineDropped(row: Row)
    requires CellAt(row, OutflowAt).Some? && ',' in CellAt(row, OutflowAt).value
    requires CellAt(row, InflowAt).Some? && ',' in CellAt(row, InflowAt).value
    ensures CleanRow(row).None?
  {
    SeparatedAmountIsZero(CellAt(row, OutflowAt).value);
    SeparatedAmountIsZero(CellAt(row, InflowAt).value);
  }

  /** Lines are not netted: a line with both sides set keeps both, and a
      negative outflow is written as it is. */
  lemma BothSidesKept(row: Row, out: int, inn: int)
    requires CellAt(row, OutflowAt).Some? && ParseAmount(CellAt(row, OutflowAt).value) == Some(out)
    requires CellAt(row, InflowAt).Some? && ParseAmount(CellAt(row, InflowAt).value) == Some(inn)
    requires out != 0 || inn != 0
    requires CellDate(CellAt(row, DateAt)).Some? && CellAt(row, DescriptionAt).Some?
    ensures CleanRow(row).Some?
    ensures CleanRow(row).value.outflow == out && CleanRow(row).value.inflow == inn
  {
  }
}

=== FILE: dates.dfy ===
/** Calendar dates as the pipeline parses them: the AMEX `%d %b %Y` text
    (after dots are removed) and the ISO `YYYY-MM-DD` text of CIBC exports,
    both limited to the range a pandas Timestamp can hold. */
module Dates {
  import opened Wrappers
  import opened Digits
  import Text

  datatype Date = Date(year: int, month: int, day: int)

  predicate IsLeapYear(y: int) {
    y % 4 == 0 && (y % 100 != 0 || y % 400 == 0)
  }

  function DaysInMonth(y: int, m: int): int
    requires 1 <= m <= 12
  {
    if m == 2 then (if IsLeapYear(y) then 29 else 28)
    else if m == 4 || m == 6 || m == 9 || m == 11 then 30
    else 31
  }

  predicate IsValid(d: Date) {
    1 <= d.month <= 12 && 1 <= d.day <= DaysInMonth(d.year, d.month)
  }

  /** Chronological order on dates. */
  predicate DateLess(a: Date, b: Date) {
    a.year < b.year || (a.year == b.year && (a.month < b.month || (a.month == b.month && a.day < b.day)))
  }

  /** Dates a pandas Timestamp can hold at midnight: 1677-09-22 up to
      2262-04-11. Parsing a date outside this range yields NaT. */
  predicate InTimestampRange(d: Date) {
    !DateLess(d, Date(1677, 9, 22)) && !DateLess(Date(2262, 4, 11), d)
  }

  const MonthAbbreviations: seq<string> :=
    ["Jan", "Feb", "Mar", "Apr", "May", "Jun", "Jul", "Aug", "Sep", "Oct", "Nov", "Dec"]

  /** Month number of an English three-letter abbreviation, matched
      without regard to case as strptime's `%b` does. */
  function MonthOfAbbreviation(s: string): (r: Option<int>)
    ensures r.Some? ==> 1 <= r.value <= 12 && Text.Lower(s) == Text.Lower(MonthAbbreviations[r.value - 1])
    ensures r.None? ==> forall m :: 0 <= m < 12 ==> Text.Lower(s) != Text.Lower(MonthAbbreviations[m])
  {
    FindMonth(Text.Lower(s), 0)
  }

  function FindMonth(lowered: string, from: nat): (r: Option<int>)
    requires from <= 12
    ensures r.Some? ==> from + 1 <= r.value <= 12 && lowered == Text.Lower(MonthAbbreviations[r.value - 1])
    ensures r.None? ==> forall m :: from <= m < 12 ==> lowered != Text.Lower(MonthAbbreviations[m])
    decreases 12 - from
  {
    if from == 12 then None
    else if lowered == Text.Lower(MonthAbbreviations[from]) then Some(from + 1)
    else FindMonth(lowered, from + 1)
  }

  /** Whether `d` is a date the Timestamp-backed readers can return. */
  predicate Representable(d: Date) {
    IsValid(d) && InTimestampRange(d)
  }

  /** pandas.to_datetime(text, format="%d %b %Y", errors="coerce"): a one-
      or two-digit day, a month abbreviation and a four-digit year,
      separated by single spaces. None stands for NaT. */
  function ParseDayMonthYear(s: string): (r: Option<Date>)
    ensures r.Some? ==> Representable(r.value)
  {
    if |s| < 10 || |s| > 11 then None
    else
      var k := |s| - 9;
      if s[k] != ' ' || s[k + 4] != ' ' || !AllDigits(s[..k]) || !AllDigits(s[k + 5..]) then None
      else
        match MonthOfAbbreviation(s[k + 1..k + 4])
        case None => None
        case Some(m) =>
          var d := Date(DigitsValue(s[k + 5..]), m, DigitsValue(s[..k]));
          if Representable(d) then Some(d) else None
  }

  /** A date written as `DD Mon YYYY`, the layout the AMEX reader accepts. */
  function FormatDayMonthYear(d: Date): string
    requires Representable(d)
  {
    PadDigits(d.day, 2) + " " + MonthAbbreviations[d.month - 1] + " " + PadDigits(d.year, 4)
  }

  /** Every representable date survives writing and re-reading. */
  lemma ParseFormatDayMonthYear(d: Date)
    requires Representable(d)
    ensures ParseDayMonthYear(FormatDayMonthYear(d)) == Some(d)
  {
    var dd := PadDigits(d.day, 2);
    var mon := MonthAbbreviations[d.month - 1];
    var yy := PadDigits(d.year, 4);
    var s := dd + " " + mon + " " + yy;
    assert |s| == 11;
    assert s[..2] == dd;
    assert s[3..6] == mon;
    assert s[7..] == yy;
    assert MonthOfAbbreviation(mon) == Some(d.month) by {
      FindMonthFirst(Text.Lower(mon), d.month - 1);
    }
  }

  /** The month table has no repeated abbreviation, so a match is the month. */
  lemma FindMonthFirst(lowered: string, m: nat)
    requires m < 12 && lowered == Text.Lower(MonthAbbreviations[m])
    ensures FindMonth(lowered, 0) == Some(m + 1)
  {
    LowerAbbreviationsDistinct();
    var r := FindMonth(lowered, 0);
    assert FindMonth(lowered, 0).Some?;
  }

  lemma LowerAbbreviationsDistinct()
    ensures forall i, j :: 0 <= i < j < 12 ==> Text.Lower(MonthAbbreviations[i]) != Text.Lower(MonthAbbreviations[j])
  {
    forall i, j | 0 <= i < j < 12
      ensures Text.Lower(MonthAbbreviations[i]) != Text.Lower(MonthAbbreviations[j])
    {
      var a := MonthAbbreviations[i];
      var b := MonthAbbreviations[j];
      assert Text.Lower(a)[0] == Text.LowerChar(a[0]);
      assert Text.Lower(a)[1] == Text.LowerChar(a[1]);
      assert Text.Lower(a)[2] == Text.LowerChar(a[2]);
      assert Text.Lower(b)[0] == Text.LowerChar(b[0]);
      assert Text.Lower(b)[1] == Text.LowerChar(b[1]);
      assert Text.Lower(b)[2] == Text.LowerChar(b[2]);
    }
  }

  /** pandas.to_datetime(text, errors="coerce") on the ISO `YYYY-MM-DD`
      text of a CIBC export. None stands for NaT. */
  function ParseIsoDate(s: string): (r: Option<Date>)
    ensures r.Some? ==> Representable(r.value)
  {
    if |s| != 10 || s[4] != '-' || s[7] != '-' then None
    else if !AllDigits(s[..4]) || !AllDigits(s[5..7]) || !AllDigits(s[8..]) then None
    else
      var d := Date(DigitsValue(s[..4]), DigitsValue(s[5..7]), DigitsValue(s[8..]));
      if Representable(d) then Some(d) else None
  }

  function FormatIsoDate(d: Date): string
    requires Representable(d)
  {
    PadDigits(d.year, 4) + "-" + PadDigits(d.month, 2) + "-" + PadDigits(d.day, 2)
  }

  lemma ParseFormatIsoDate(d: Date)
    requires Representable(d)
    ensures ParseIsoDate(FormatIsoDate(d)) == Some(d)
  {
    var s := FormatIsoDate(d);
    assert s[..4] == PadDigits(d.year, 4);
    assert s[5..7] == PadDigits(d.month, 2);
    assert s[8..] == PadDigits(d.day, 2);
  }
}

=== FILE: digits.dfy ===
/** Decimal digit strings: reading them as numbers and writing numbers
    as them, shared by the amount and date readers. */
module Digits {

  predicate IsDigit(c: char) {
    '0' <= c <= '9'
  }

  predicate AllDigits(s: string) {
    forall i :: 0 <= i < |s| ==> IsDigit(s[i])
  }

  function DigitValue(c: char): nat
    requires IsDigit(c)
  {
    c as int - '0' as int
  }

  function Digit(d: nat): (c: char)
    requires d < 10
    ensures IsDigit(c) && DigitValue(c) == d
  {
    ('0' as int + d) as char
  }

  /** Value of a run of decimal digits, most significant first. */
  function DigitsValue(s: string): nat
    requires AllDigits(s)
  {
    if s == [] then 0 else DigitsValue(s[..|s| - 1]) * 10 + DigitValue(s[|s| - 1])
  }

  /** Decimal rendering of a natural number, reading back as the number. */
  function NatToDigits(n: nat): (r: string)
    ensures |r| >= 1 && AllDigits(r)
    ensures DigitsValue(r) == n
    decreases n
  {
    if n < 10 then [Digit(n)]
    else
      var r := NatToDigits(n / 10) + [Digit(n % 10)];
      assert r[..|r| - 1] == NatToDigits(n / 10);
      r
  }

  function Pow10(w: nat): (p: nat)
    ensures p >= 1
  {
    if w == 0 then 1 else 10 * Pow10(w - 1)
  }

  /** `n` written with exactly `w` digits, with leading zeros. */
  function PadDigits(n: nat, w: nat): (r: string)
    requires n < Pow10(w)
    ensures |r| == w && AllDigits(r)
    ensures DigitsValue(r) == n
  {
    if w == 0 then []
    else
      var r := PadDigits(n / 10, w - 1) + [Digit(n % 10)];
      assert r[..|r| - 1] == PadDigits(n / 10, w - 1);
      r
  }

  lemma {:induction false} DigitsValueBound(s: string)
    requires AllDigits(s)
    ensures DigitsValue(s) < Pow10(|s|)
  {
    if s != [] {
      DigitsValueBound(s[..|s| - 1]);
    }
  }

  /** Every string of digits is the padded rendering of its own value. */
  lemma {:induction false} PadDigitsOfValue(s: string)
    requires AllDigits(s)
    ensures DigitsValue(s) < Pow10(|s|)
    ensures PadDigits(DigitsValue(s), |s|) == s
  {
    DigitsValueBound(s);
    if s != [] {
      var p := s[..|s| - 1];
      var v := DigitsValue(s);
      DigitsValueBound(p);
      PadDigitsOfValue(p);
      LastDigit(v, DigitsValue(p), DigitValue(s[|s| - 1]));
      assert Digit(DigitValue(s[|s| - 1])) == s[|s| - 1];
      assert s == p + [s[|s| - 1]];
    }
  }

  lemma LastDigit(v: nat, q: nat, d: nat)
    requires d < 10 && v == q * 10 + d
    ensures v / 10 == q && v % 10 == d
  {
  }
}

=== FILE: frames.dfy ===
/** The in-memory transaction table of the finance app. A frame knows
    which columns it has; a cell of a missing column, or a NaN / NaT cell,
    is None. */
module Frames {
  import opened Wrappers
  import opened Dates

  datatype Txn = Txn(
    date: Option<Date>,
    description: Option<string>,
    merchant: Option<string>,
    amount: Option<int>,
    inflow: Option<int>,
    outflow: Option<int>,
    source: Option<string>,
    category: Option<string>)

  datatype Frame = Frame(columns: set<string>, rows: seq<Txn>)

  const DateColumn: string := "Date"
  const MerchantColumn: string := "Merchant"
  const AmountColumn: string := "Amount"
  const InflowColumn: string := "Inflow"
  const OutflowColumn: string := "Outflow"
  const CategoryColumn: string := "Category"
  const DescriptionColumn: string := "Description"
  const SourceColumn: string := "Source"

  /** DataFrame.empty: no rows, or no columns. */
  predicate IsEmpty(f: Frame) {
    f.rows == [] || f.columns == {}
  }

  /** A row holds no value in a column the frame does not have. */
  predicate RowFits(columns: set<string>, r: Txn) {
    && (DateColumn !in columns ==> r.date.None?)
    && (DescriptionColumn !in columns ==> r.description.None?)
    && (MerchantColumn !in columns ==> r.merchant.None?)
    && (AmountColumn !in columns ==> r.amount.None?)
    && (InflowColumn !in columns ==> r.inflow.None?)
    && (OutflowColumn !in columns ==> r.outflow.None?)
    && (SourceColumn !in columns ==> r.source.None?)
    && (CategoryColumn !in columns ==> r.category.None?)
  }

  /** Every cell of a missing column is NaN, as pandas leaves it. */
  predicate WellFormed(f: Frame) {
    forall r | r in f.rows :: RowFits(f.columns, r)
  }

  /** A frame whose money sits in separate Inflow and Outflow columns. */
  predicate HasSplitColumns(f: Frame) {
    InflowColumn in f.columns && OutflowColumn in f.columns
  }
}

=== FILE: ledger.dfy ===
/** Folding the session buffer into the persistent ledger
    (append_to_persistent_data in main.py): concatenate, then
    drop_duplicates on (Date, Merchant, Amount) keeping the last row. */
module Ledger {
  import opened Wrappers
  import opened Dates
  import opened Frames

  /** The deduplication key. pandas compares NaN / NaT keys as equal, which
      is what comparing two None values does. */
  datatype Key = Key(date: Option<Date>, merchant: Option<string>, amount: Option<int>)

  function KeyOf(r: Txn): Key {
    Key(r.date, r.merchant, r.amount)
  }

  function Keys(s: seq<Txn>): set<Key> {
    set x | x in s :: KeyOf(x)
  }

  /** Row `i` is the last row of `s` with its key. */
  predicate IsLast(s: seq<Txn>, i: nat)
    requires i < |s|
  {
    forall j :: i < j < |s| ==> KeyOf(s[j]) != KeyOf(s[i])
  }

  predicate UniqueKeys(s: seq<Txn>) {
    forall i, j :: 0 <= i < j < |s| ==> KeyOf(s[i]) != KeyOf(s[j])
  }

  /** `sub` can be obtained from `s` by deleting rows. */
  predicate IsSubsequence(sub: seq<Txn>, s: seq<Txn>) {
    if sub == [] then true
    else if s == [] then false
    else (sub[0] == s[0] && IsSubsequence(sub[1..], s[1..])) || IsSubsequence(sub, s[1..])
  }

  /** drop_duplicates(keep="last"): a row survives when no later row
      shares its key. */
  function KeepLast(s: seq<Txn>): (r: seq<Txn>)
    ensures |r| <= |s|
    ensures s != [] ==> r != [] && r[|r| - 1] == s[|s| - 1]
  {
    if s == [] then []
    else (if KeyOf(s[0]) in Keys(s[1..]) then [] else [s[0]]) + KeepLast(s[1..])
  }

  lemma KeysCons(s: seq<Txn>)
    requires s != []
    ensures Keys(s) == {KeyOf(s[0])} + Keys(s[1..])
  {
    assert s == [s[0]] + s[1..];
    assert forall x :: x in s <==> x == s[0] || x in s[1..];
  }

  lemma KeysAppend(a: seq<Txn>, b: seq<Txn>)
    ensures Keys(a + b) == Keys(a) + Keys(b)
  {
    assert forall x :: x in a + b <==> x in a || x in b;
  }

  /** The result holds at most one row per key ... */
  lemma {:induction false} KeepLastUnique(s: seq<Txn>)
    ensures UniqueKeys(KeepLast(s))
    ensures Keys(KeepLast(s)) <= Keys(s)
  {
    if s != [] {
      KeepLastUnique(s[1..]);
      KeysCons(s);
      var tail := KeepLast(s[1..]);
      if KeyOf(s[0]) !in Keys(s[1..]) {
        assert KeepLast(s) == [s[0]] + tail;
        ConsUnique(s[0], tail);
        KeysCons([s[0]] + tail);
        assert ([s[0]] + tail)[1..] == tail;
      } else {
        assert KeepLast(s) == tail;
      }
    }
  }

  lemma ConsUnique(x: Txn, tail: seq<Txn>)
    requires UniqueKeys(tail) && KeyOf(x) !in Keys(tail)
    ensures UniqueKeys([x] + tail)
  {
    var s := [x] + tail;
    forall i, j | 0 <= i < j < |s| ensures KeyOf(s[i]) != KeyOf(s[j]) {
      assert s[j] == tail[j - 1];
      if i == 0 {
        assert tail[j - 1] in tail;
      } else {
        assert s[i] == tail[i - 1];
      }
    }
  }

  /** ... every key of the input keeps a row, and that row is the last
      row of the input with that key ... */
  lemma {:induction false} KeepLastKeepsLast(s: seq<Txn>, i: nat)
    requires i < |s| && IsLast(s, i)
    ensures s[i] in KeepLast(s)
  {
    if i == 0 {
      KeysLast(s);
    } else {
      KeepLastKeepsLast(s[1..], i - 1);
    }
  }

  lemma KeysLast(s: seq<Txn>)
    requires s != [] && IsLast(s, 0)
    ensures KeyOf(s[0]) !in Keys(s[1..])
  {
    forall x | x in s[1..] ensures KeyOf(x) != KeyOf(s[0]) {
      var j :| 0 <= j < |s[1..]| && s[1..][j] == x;
      assert s[j + 1] == x;
    }
  }

  lemma {:induction false} KeepLastOnlyLast(s: seq<Txn>, y: Txn)
    requires y in KeepLast(s)
    ensures exists i :: 0 <= i < |s| && IsLast(s, i) && s[i] == y
  {
    var tail := KeepLast(s[1..]);
    if y in tail {
      KeepLastOnlyLast(s[1..], y);
      var i :| 0 <= i < |s[1..]| && IsLast(s[1..], i) && s[1..][i] == y;
      assert IsLast(s, i + 1);
    } else {
      assert y == s[0] && KeyOf(s[0]) !in Keys(s[1..]);
      assert forall j :: 0 < j < |s| ==> s[j] in s[1..];
      assert IsLast(s, 0);
    }
  }

  /** ... and the survivors keep their relative order. */
  lemma {:induction false} KeepLastSubsequence(s: seq<Txn>)
    ensures IsSubsequence(KeepLast(s), s)
  {
    if s != [] {
      KeepLastSubsequence(s[1..]);
      var tail := KeepLast(s[1..]);
      if KeyOf(s[0]) !in Keys(s[1..]) {
        assert ([s[0]] + tail)[1..] == tail;
      } else if tail != [] {
        assert KeepLast(s) == tail;
      }
    }
  }

  /** Rows of `s` whose key is not in `keys`. */
  function DropKeys(s: seq<Txn>, keys: set<Key>): (r: seq<Txn>)
    ensures Keys(r) !! keys
  {
    if s == [] then []
    else
      KeysCons(s);
      var rest := DropKeys(s[1..], keys);
      if KeyOf(s[0]) in keys then rest
      else
        KeysCons([s[0]] + rest);
        assert ([s[0]] + rest)[1..] == rest;
        [s[0]] + rest
  }

  /** Deduplicating a concatenation: the rows of the front that survive on
      their own and whose key does not reappear behind, then the survivors
      of the back. */
  lemma {:induction false} KeepLastAppend(a: seq<Txn>, b: seq<Txn>)
    ensures KeepLast(a + b) == DropKeys(KeepLast(a), Keys(b)) + KeepLast(b)
  {
    if a == [] {
      assert a + b == b;
    } else {
      var head := KeepLastAppendStep(a, b);
      KeepLastAppend(a[1..], b);
      DropKeysRegroup(head, KeepLast(a[1..]), KeepLast(b), Keys(b));
    }
  }

  lemma DropKeysRegroup(head: seq<Txn>, x: seq<Txn>, back: seq<Txn>, keys: set<Key>)
    ensures DropKeys(head, keys) + (DropKeys(x, keys) + back) == DropKeys(head + x, keys) + back
  {
    DropKeysAppend(head, x, keys);
    assert DropKeys(head, keys) + (DropKeys(x, keys) + back)
      == (DropKeys(head, keys) + DropKeys(x, keys)) + back;
  }

  /** One step of the induction above: the front row survives the
      concatenation exactly when it survives in front and its key does not
      reappear behind. */
  lemma KeepLastAppendStep(a: seq<Txn>, b: seq<Txn>) returns (head: seq<Txn>)
    requires a != []
    ensures KeepLast(a) == head + KeepLast(a[1..])
    ensures KeepLast(a + b) == DropKeys(head, Keys(b)) + KeepLast(a[1..] + b)
  {
    var rest := a[1..];
    var k := KeyOf(a[0]);
    assert (a + b)[1..] == rest + b;
    assert (a + b)[0] == a[0];
    KeysAppend(rest, b);
    head := if k in Keys(rest) then [] else [a[0]];
    var joint: seq<Txn> := if k in Keys(rest + b) then [] else [a[0]];
    assert KeepLast(a + b) == joint + KeepLast(rest + b);
    assert DropKeys(head, Keys(b)) == joint by {
      if k !in Keys(rest) {
        assert head[1..] == [];
      }
    }
  }

  lemma {:induction false} DropKeysAppend(x: seq<Txn>, y: seq<Txn>, keys: set<Key>)
    ensures DropKeys(x + y, keys) == DropKeys(x, keys) + DropKeys(y, keys)
  {
    if x != [] {
      assert (x + y)[1..] == x[1..] + y;
      assert (x + y)[0] == x[0];
      DropKeysAppend(x[1..], y, keys);
    } else {
      assert x + y == y;
    }
  }

  lemma {:induction false} DropKeysAbsent(s: seq<Txn>, keys: set<Key>)
    requires Keys(s) !! keys
    ensures DropKeys(s, keys) == s
  {
    if s != [] {
      KeysCons(s);
      DropKeysAbsent(s[1..], keys);
    }
  }

  lemma {:induction false} DropKeysAll(s: seq<Txn>, keys: set<Key>)
    requires Keys(s) <= keys
    ensures DropKeys(s, keys) == []
  {
    if s != [] {
      KeysCons(s);
      DropKeysAll(s[1..], keys);
    }
  }

  lemma {:induction false} DropKeysKeys(s: seq<Txn>, keys: set<Key>)
    ensures Keys(DropKeys(s, keys)) <= Keys(s)
    ensures UniqueKeys(s) ==> UniqueKeys(DropKeys(s, keys))
  {
    if s != [] {
      KeysCons(s);
      DropKeysKeys(s[1..], keys);
      var rest := DropKeys(s[1..], keys);
      if KeyOf(s[0]) !in keys {
        KeysCons([s[0]] + rest);
        assert ([s[0]] + rest)[1..] == rest;
        if UniqueKeys(s) {
          assert UniqueKeys(s[1..]) by {
            forall i, j | 0 <= i < j < |s[1..]| ensures KeyOf(s[1..][i]) != KeyOf(s[1..][j]) {
              assert s[1..][i] == s[i + 1] && s[1..][j] == s[j + 1];
            }
          }
          assert KeyOf(s[0]) !in Keys(s[1..]) by {
            forall x | x in s[1..] ensures KeyOf(x) != KeyOf(s[0]) {
              var j :| 0 <= j < |s[1..]| && s[1..][j] == x;
              assert s[j + 1] == x;
            }
          }
          var r := [s[0]] + rest;
          forall i, j | 0 <= i < j < |r| ensures KeyOf(r[i]) != KeyOf(r[j]) {
            if i == 0 {
              assert r[j] == rest[j - 1];
              assert KeyOf(rest[j - 1]) in Keys(rest);
            } else {
              assert r[i] == rest[i - 1] && r[j] == rest[j - 1];
            }
          }
        }
      }
    }
  }

  /** Deduplicating rows whose keys are already distinct changes nothing. */
  lemma {:induction false} KeepLastOfUnique(s: seq<Txn>)
    requires UniqueKeys(s)
    ensures KeepLast(s) == s
  {
    if s != [] {
      assert UniqueKeys(s[1..]) by {
        forall i, j | 0 <= i < j < |s[1..]| ensures KeyOf(s[1..][i]) != KeyOf(s[1..][j]) {
          assert s[1..][i] == s[i + 1] && s[1..][j] == s[j + 1];
        }
      }
      KeepLastOfUnique(s[1..]);
      assert IsLast(s, 0);
      KeysLast(s);
      assert s == [s[0]] + s[1..];
    }
  }

  // ---------------------------------------------------------------------
  // The merge itself

  datatype MergeError = EmptySession | MissingKeyColumn

  const KeyColumns: set<string> := {DateColumn, MerchantColumn, AmountColumn}

  /** append_to_persistent_data. An empty session is reported and the
      ledger stays as it was; an empty ledger becomes a copy of the session
      with no deduplication; otherwise the concatenation is deduplicated,
      which raises KeyError when a key column exists in neither frame. */
  function Merge(ledger: Frame, session: Frame): (r: Result<Frame, MergeError>)
    ensures r == Failure(EmptySession) <==> IsEmpty(session)
    ensures !IsEmpty(session) && IsEmpty(ledger) ==> r == Success(session)
    ensures r == Failure(MissingKeyColumn) <==>
      !IsEmpty(session) && !IsEmpty(ledger) && !(KeyColumns <= ledger.columns + session.columns)
    ensures r.Success? && !IsEmpty(ledger) ==>
      && r.value.columns == ledger.columns + session.columns
      && UniqueKeys(r.value.rows)
      && Keys(r.value.rows) == Keys(ledger.rows + session.rows)
      && IsSubsequence(r.value.rows, ledger.rows + session.rows)
  {
    if IsEmpty(session) then Failure(EmptySession)
    else if IsEmpty(ledger) then Success(session)
    else if !(KeyColumns <= ledger.columns + session.columns) then Failure(MissingKeyColumn)
    else
      var all := ledger.rows + session.rows;
      KeepLastUnique(all);
      KeepLastSubsequence(all);
      KeepLastCoversKeys(all);
      Success(Frame(ledger.columns + session.columns, KeepLast(all)))
  }

  lemma KeepLastCoversKeys(s: seq<Txn>)
    ensures Keys(KeepLast(s)) == Keys(s)
  {
    KeepLastUnique(s);
    forall k | k in Keys(s) ensures k in Keys(KeepLast(s)) {
      var x :| x in s && KeyOf(x) == k;
      var i := LastIndexOf(s, k);
      KeepLastKeepsLast(s, i);
    }
  }

  function LastIndexOf(s: seq<Txn>, k: Key): (i: nat)
    requires k in Keys(s)
    ensures i < |s| && KeyOf(s[i]) == k && IsLast(s, i)
  {
    var last := s[|s| - 1];
    if KeyOf(last) == k then |s| - 1
    else
      assert s == s[..|s| - 1] + [last];
      KeysAppend(s[..|s| - 1], [last]);
      var i := LastIndexOf(s[..|s| - 1], k);
      assert s[..|s| - 1][i] == s[i];
      i
  }

  /** Every row that survives a merge into a non-empty ledger is the last
      row of ledger-then-session with its key, so a session row replaces
      the ledger row it collides with. */
  lemma MergeKeepsLast(ledger: Frame, session: Frame, y: Txn)
    requires Merge(ledger, session).Success? && !IsEmpty(ledger)
    requires y in Merge(ledger, session).value.rows
    ensures var all := ledger.rows + session.rows;
      exists i :: 0 <= i < |all| && IsLast(all, i) && all[i] == y
  {
    KeepLastOnlyLast(ledger.rows + session.rows, y);
  }

  lemma MergeSessionRowWins(ledger: Frame, session: Frame, j: nat)
    requires Merge(ledger, session).Success? && !IsEmpty(ledger)
    requires j < |session.rows| && IsLast(session.rows, j)
    ensures session.rows[j] in Merge(ledger, session).value.rows
    ensures forall x :: x in ledger.rows && KeyOf(x) == KeyOf(session.rows[j]) && x != session.rows[j] ==>
      x !in Merge(ledger, session).value.rows
  {
    var all := ledger.rows + session.rows;
    var n := |ledger.rows|;
    assert all[n + j] == session.rows[j];
    assert IsLast(all, n + j);
    KeepLastKeepsLast(all, n + j);
    KeepLastUnique(all);
    forall x | x in ledger.rows && KeyOf(x) == KeyOf(session.rows[j]) && x != session.rows[j]
      ensures x !in KeepLast(all)
    {
      UniqueMember(KeepLast(all), x, session.rows[j]);
    }
  }

  lemma UniqueMember(s: seq<Txn>, x: Txn, y: Txn)
    requires UniqueKeys(s) && y in s && KeyOf(x) == KeyOf(y) && x != y
    ensures x !in s
  {
    var b :| 0 <= b < |s| && s[b] == y;
    forall a | 0 <= a < |s| ensures s[a] != x {
      if a != b {
        assert KeyOf(s[a]) != KeyOf(s[b]);
      }
    }
  }

  /** Deduplicating twice is deduplicating once. */
  lemma {:induction false} KeepLastIdempotent(s: seq<Txn>)
    ensures KeepLast(KeepLast(s)) == KeepLast(s)
  {
    KeepLastUnique(s);
    KeepLastOfUnique(KeepLast(s));
  }

  lemma {:induction false} DropKeysSplit(front: seq<Txn>, tail: seq<Txn>, keys: set<Key>)
    requires Keys(front) !! keys && Keys(tail) <= keys
    ensures DropKeys(front + tail, keys) == front
  {
    DropKeysAppend(front, tail, keys);
    DropKeysAbsent(front, keys);
    DropKeysAll(tail, keys);
  }

  /** Re-appending the same rows to an already deduplicated result and
      deduplicating again gives the same result. */
  lemma {:induction false} KeepLastTwice(a: seq<Txn>, b: seq<Txn>)
    ensures KeepLast(KeepLast(a + b) + b) == KeepLast(a + b)
  {
    var kb := Keys(b);
    var front := DropKeys(KeepLast(a), kb);
    var tail := KeepLast(b);
    var m := KeepLast(a + b);
    KeepLastAppend(a, b);
    KeepLastAppend(m, b);
    KeepLastIdempotent(a + b);
    KeepLastUnique(b);
    DropKeysSplit(front, tail, kb);
  }

  /** Merging the same session a second time changes nothing. */
  lemma MergeTwice(ledger: Frame, session: Frame)
    requires Merge(ledger, session).Success? && !IsEmpty(ledger)
    ensures Merge(Merge(ledger, session).value, session) == Merge(ledger, session)
  {
    var m := Merge(ledger, session).value;
    var b := session.rows;
    assert m.rows != [] by {
      KeepLastCoversKeys(ledger.rows + b);
      KeysAppend(ledger.rows, b);
      assert KeyOf(b[0]) in Keys(b);
    }
    assert m.columns != {};
    KeepLastTwice(ledger.rows, b);
  }

  /** Merging two well-formed frames gives a well-formed frame: every kept
      row comes from one of them, and the columns are their union. */
  lemma MergeWellFormed(ledger: Frame, session: Frame)
    requires WellFormed(ledger) && WellFormed(session) && Merge(ledger, session).Success?
    ensures WellFormed(Merge(ledger, session).value)
  {
    if !IsEmpty(ledger) {
      var all := ledger.rows + session.rows;
      var m := Merge(ledger, session).value;
      KeepLastWithin(all);
      forall r | r in m.rows ensures RowFits(m.columns, r) {
        assert r in all;
      }
    }
  }

  /** Every row de-duplication keeps is a row of its input. */
  lemma {:induction false} KeepLastWithin(s: seq<Txn>)
    ensures forall x :: x in KeepLast(s) ==> x in s
  {
    if s != [] {
      KeepLastWithin(s[1..]);
    }
  }

  /** Into an empty ledger the session is copied as it is, duplicates
      included; into a non-empty one the same session is deduplicated. */
  lemma MergeIntoEmptyKeepsDuplicates(ledger: Frame, x: Txn)
    requires !IsEmpty(ledger) && KeyColumns <= ledger.columns
    ensures var session := Frame(ledger.columns, [x, x]);
      && Merge(Frame(ledger.columns, []), session) == Success(session)
      && |Merge(ledger, session).value.rows| <= |ledger.rows| + 1
      && multiset(Merge(ledger, session).value.rows)[x] == 1
  {
    var session := Frame(ledger.columns, [x, x]);
    assert Merge(ledger, session).value.rows == KeepLast(ledger.rows + [x, x]);
    DoubledKeptOnce(ledger.rows, x);
  }

  /** A row appended twice after `a` survives de-duplication exactly once,
      and nothing else is added. */
  lemma DoubledKeptOnce(a: seq<Txn>, x: Txn)
    ensures |KeepLast(a + [x, x])| <= |a| + 1
    ensures multiset(KeepLast(a + [x, x]))[x] == 1
  {
    KeepLastAppend(a, [x, x]);
    assert KeepLast([x, x]) == [x] by {
      assert [x, x][1..] == [x];
      assert [x][1..] == [];
      assert Keys([]) == {};
      assert KeepLast([x]) == [x];
      assert KeyOf(x) in Keys([x]);
    }
    var dropped := DropKeys(KeepLast(a), Keys([x, x]));
    DropKeysLength(KeepLast(a), Keys([x, x]));
    KeepLastLength(a);
    assert KeyOf(x) in Keys([x, x]);
    assert x !in dropped;
    assert multiset(dropped + [x])[x] == multiset(dropped)[x] + 1;
  }

  lemma {:induction false} DropKeysLength(s: seq<Txn>, keys: set<Key>)
    ensures |DropKeys(s, keys)| <= |s|
  {
    if s != [] { DropKeysLength(s[1..], keys); }
  }

  lemma {:induction false} KeepLastLength(s: seq<Txn>)
    ensures |KeepLast(s)| <= |s|
  {
    if s != [] { KeepLastLength(s[1..]); }
  }

  /** The row-by-row scan pandas performs: walk from the back, remember the
      keys already seen, keep a row whose key is new. */
  method DropDuplicatesKeepLast(s: seq<Txn>) returns (r: seq<Txn>)
    ensures r == KeepLast(s)
  {
    r := [];
    var seen: set<Key> := {};
    var i := |s|;
    while i > 0
      invariant 0 <= i <= |s|
      invariant r == KeepLast(s[i..])
      invariant seen == Keys(s[i..])
    {
      i := i - 1;
      assert s[i..][1..] == s[i + 1..];
      KeysCons(s[i..]);
      if KeyOf(s[i]) !in seen {
        r := [s[i]] + r;
      }
      seen := seen + {KeyOf(s[i])};
    }
    assert s[0..] == s;
  }
}

=== FILE: loader.dfy ===
/** Reading an uploaded statement into the session (load_transactions in
    main.py, after the CSV has been read and its dates converted). */
module Loader {
  import opened Wrappers
  import opened Frames
  import Categorizer

  /** The legacy signed Amount split into the two sides. pandas assigns a
      filtered column back onto the frame, so the side a row does not
      select is missing (NaN), not zero. */
  function SplitRow(r: Txn): (s: Txn)
    ensures s.(inflow := r.inflow, outflow := r.outflow) == r
    ensures s.inflow.Some? <==> r.amount.Some? && r.amount.value > 0
    ensures s.outflow.Some? <==> r.amount.Some? && r.amount.value < 0
  {
    r.(inflow := if r.amount.Some? && r.amount.value > 0 then Some(r.amount.value) else None,
       outflow := if r.amount.Some? && r.amount.value < 0 then Some(-r.amount.value) else None)
  }

  /** The split loses nothing: Inflow minus Outflow is the signed Amount
      (a missing Amount counting as zero), no row gets both sides, and the
      side that is set is positive. */
  lemma SplitRowFaithful(r: Txn)
    ensures var s := SplitRow(r);
      && s.inflow.GetOr(0) - s.outflow.GetOr(0) == r.amount.GetOr(0)
      && !(s.inflow.Some? && s.outflow.Some?)
      && (s.inflow.Some? ==> s.inflow.value > 0)
      && (s.outflow.Some? ==> s.outflow.value > 0)
  {
  }

  function SplitAmount(f: Frame): (g: Frame)
    ensures g.columns == f.columns + {InflowColumn, OutflowColumn}
    ensures |g.rows| == |f.rows| && forall i :: 0 <= i < |f.rows| ==> g.rows[i] == SplitRow(f.rows[i])
  {
    Frame(f.columns + {InflowColumn, OutflowColumn}, seq(|f.rows|, i requires 0 <= i < |f.rows| => SplitRow(f.rows[i])))
  }

  datatype LoadError = UnsupportedFormat | CategorizeFailed

  /** load_transactions: a frame with Inflow and Outflow is kept as it is,
      one with only Amount is split, anything else is refused; then every
      row is categorised, a failure there being reported. */
  function Load(f: Frame, t: Categorizer.Table): (r: Result<Frame, LoadError>)
    ensures r == Failure(UnsupportedFormat) <==> !HasSplitColumns(f) && AmountColumn !in f.columns
    ensures r == Failure(CategorizeFailed) <==>
      && (HasSplitColumns(f) || AmountColumn in f.columns)
      && MerchantColumn !in f.columns && Categorizer.ReadsMerchant(f, t)
    ensures r.Success? ==>
      && HasSplitColumns(r.value)
      && |r.value.rows| == |f.rows|
      && (HasSplitColumns(f) ==> forall i :: 0 <= i < |f.rows| ==>
            r.value.rows[i].(category := f.rows[i].category) == f.rows[i])
      && (!HasSplitColumns(f) ==> forall i :: 0 <= i < |f.rows| ==>
            r.value.rows[i].(category := f.rows[i].category) == SplitRow(f.rows[i]))
      && forall i :: 0 <= i < |f.rows| ==>
           r.value.rows[i].category == Some(Categorizer.CategoryOf(t, Categorizer.MerchantText(f.rows[i])))
  {
    var g := if HasSplitColumns(f) then Success(f)
      else if AmountColumn in f.columns then Success(SplitAmount(f))
      else Failure(UnsupportedFormat);
    if g.Failure? then Failure(UnsupportedFormat)
    else
      match Categorizer.Categorize(g.value, t)
      case Failure(_) => Failure(CategorizeFailed)
      case Success(h) => Success(h)
  }

  /** Loading a well-formed frame gives a well-formed frame: the split
      fills only the Inflow and Outflow columns it adds. */
  lemma LoadWellFormed(f: Frame, t: Categorizer.Table)
    requires WellFormed(f) && Load(f, t).Success?
    ensures WellFormed(Load(f, t).value)
  {
    var g := if HasSplitColumns(f) then f else SplitAmount(f);
    forall r | r in g.rows ensures RowFits(g.columns, r) {
      var i :| 0 <= i < |g.rows| && g.rows[i] == r;
      assert RowFits(f.columns, f.rows[i]);
    }
    Categorizer.CategorizeWellFormed(g, t);
  }
}

=== FILE: money.dfy ===
/** Money as whole cents, and a decimal reader standing in for
    pandas.to_numeric on amount text. The accepted grammar is
    `[+-]? digits* ('.' digit{0,2})?` with at least one digit. */
module Money {
  import opened Wrappers
  import opened Digits

  function Abs(x: int): (r: nat)
    ensures r == x || r == -x
  {
    if x < 0 then -x else x
  }

  /** Index of the first `.` in `s`, if any. */
  function FirstDot(s: string): (r: Option<nat>)
    ensures r.Some? ==> r.value < |s| && s[r.value] == '.' && '.' !in s[..r.value]
    ensures r.None? ==> '.' !in s
  {
    if s == [] then None
    else if s[0] == '.' then Some(0)
    else
      var r := FirstDot(s[1..]);
      if r.Some? then
        assert s[..r.value + 1] == [s[0]] + s[1..][..r.value];
        Some(r.value + 1)
      else
        assert s == [s[0]] + s[1..];
        None
  }

  /** Cents contributed by the fraction digits: "" is 0, "5" is 50, "05" is 5. */
  function FractionCents(f: string): (c: nat)
    requires AllDigits(f) && |f| <= 2
    ensures c < 100
  {
    if |f| == 0 then 0
    else if |f| == 1 then 10 * DigitValue(f[0])
    else 10 * DigitValue(f[0]) + DigitValue(f[1])
  }

  /** An unsigned decimal as cents; None when the text does not parse. */
  function ParseUnsigned(s: string): Option<nat> {
    match FirstDot(s)
    case None =>
      if s != [] && AllDigits(s) then Some(DigitsValue(s) * 100) else None
    case Some(k) =>
      var whole := s[..k];
      var frac := s[k + 1..];
      if AllDigits(whole) && AllDigits(frac) && |frac| <= 2 && |whole| + |frac| >= 1
      then Some(DigitsValue(whole) * 100 + FractionCents(frac))
      else None
  }

  /** Characters the decimal grammar can contain. */
  predicate NumberChar(c: char) {
    IsDigit(c) || c == '.' || c == '-' || c == '+'
  }

  /** Amount text to signed cents; None stands for the NaN that
      to_numeric(errors="coerce") yields on text it cannot read. */
  function ParseAmount(s: string): (r: Option<int>)
    ensures r.Some? ==> s != [] && forall i :: 0 <= i < |s| ==> NumberChar(s[i])
  {
    var negative := |s| > 0 && s[0] == '-';
    var body := if |s| > 0 && (s[0] == '-' || s[0] == '+') then s[1..] else s;
    var u := ParseUnsigned(body);
    if u.None? then None
    else
      UnsignedChars(body);
      var v: int := u.value;
      Some(if negative then -v else v)
  }

  lemma UnsignedChars(s: string)
    requires ParseUnsigned(s).Some?
    ensures s != [] && forall i :: 0 <= i < |s| ==> IsDigit(s[i]) || s[i] == '.'
  {
    match FirstDot(s)
    case None =>
    case Some(k) =>
      forall i | 0 <= i < |s| ensures IsDigit(s[i]) || s[i] == '.' {
        if i < k { assert s[i] == s[..k][i]; }
        else if i > k { assert s[i] == s[k + 1..][i - k - 1]; }
      }
  }

  /** Two-decimal rendering of a non-negative amount of cents. */
  function UnsignedText(a: nat): string {
    NatToDigits(a / 100) + "." + [Digit(a % 100 / 10), Digit(a % 10)]
  }

  /** Canonical two-decimal rendering of an amount of cents. */
  function FormatCents(c: int): string {
    (if c < 0 then "-" else "") + UnsignedText(Abs(c))
  }

  /** The unsigned reader reads a rendering back, and a rendering starts
      with a digit. */
  lemma ParseUnsignedText(a: nat)
    ensures ParseUnsigned(UnsignedText(a)) == Some(a)
    ensures IsDigit(UnsignedText(a)[0])
  {
    var whole := NatToDigits(a / 100);
    var frac := [Digit(a % 100 / 10), Digit(a % 10)];
    var body := UnsignedText(a);
    assert body == whole + "." + frac;
    assert FirstDot(body) == Some(|whole|) by {
      var k := |whole|;
      assert body[k] == '.';
      assert body[..k] == whole;
      assert '.' !in whole by {
        forall i | 0 <= i < |whole| ensures whole[i] != '.' { assert IsDigit(whole[i]); }
      }
      FirstDotAt(body, k);
    }
    assert body[..|whole|] == whole;
    assert body[|whole| + 1..] == frac;
    assert FractionCents(frac) == a % 100;
    assert body[0] == whole[0];
  }

  /** Reading back a rendered amount gives the amount: the reader loses no
      cents and gets the sign right. */
  lemma ParseFormatCents(c: int)
    ensures ParseAmount(FormatCents(c)) == Some(c)
  {
    var body := UnsignedText(Abs(c));
    ParseUnsignedText(Abs(c));
    if c < 0 {
      assert FormatCents(c) == ['-'] + body;
      ParseNegative(body, Abs(c));
    } else {
      assert FormatCents(c) == body;
      ParsePlain(body, Abs(c));
    }
  }

  lemma ParseNegative(body: string, v: nat)
    requires ParseUnsigned(body) == Some(v)
    ensures ParseAmount(['-'] + body) == Some(-(v as int))
  {
    assert (['-'] + body)[1..] == body;
  }

  lemma ParsePlain(body: string, v: nat)
    requires ParseUnsigned(body) == Some(v) && body != [] && IsDigit(body[0])
    ensures ParseAmount(body) == Some(v)
  {
  }

  lemma {:induction false} FirstDotAt(s: string, k: nat)
    requires k < |s| && s[k] == '.' && '.' !in s[..k]
    ensures FirstDot(s) == Some(k)
  {
    if k > 0 {
      assert s[0] == s[..k][0];
      assert s[1..][..k - 1] == s[1..k];
      assert forall j | 0 <= j < k - 1 :: s[1..k][j] == s[..k][j + 1];
      FirstDotAt(s[1..], k - 1);
    }
  }

  /** Text carrying a currency sign or a thousands separator does not parse. */
  lemma ParseRejectsSymbols(s: string)
    requires '$' in s || ',' in s
    ensures ParseAmount(s) == None
  {
    var i :| 0 <= i < |s| && (s[i] == '$' || s[i] == ',');
    assert !NumberChar(s[i]);
  }
}

=== FILE: paths.dfy ===
/** Windows path handling (ntpath) used to name the cleaned output file:
    os.path.basename, os.path.splitext and os.path.join. */
module Paths {
  import opened Text
  import opened Wrappers

  predicate IsSep(c: char) {
    c == '\\' || c == '/'
  }

  predicate NoSep(s: string) {
    forall i :: 0 <= i < |s| ==> !IsSep(s[i])
  }

  /** The part of `s` after its last separator (all of `s` when it has none). */
  function AfterLastSep(s: string): (r: string)
    ensures NoSep(r)
    ensures |r| <= |s| && s[|s| - |r|..] == r
    ensures |r| < |s| ==> IsSep(s[|s| - |r| - 1])
  {
    if s == [] then []
    else if IsSep(s[|s| - 1]) then []
    else
      var p := s[..|s| - 1];
      var t := AfterLastSep(p);
      assert s == p + [s[|s| - 1]];
      SuffixSnoc(p, s[|s| - 1], t);
      t + [s[|s| - 1]]
  }

  /** A suffix of `p`, extended by `c`, is a suffix of `p + [c]`, preceded
      by the same character. */
  lemma SuffixSnoc(p: string, c: char, t: string)
    requires NoSep(t) && !IsSep(c)
    requires |t| <= |p| && p[|p| - |t|..] == t
    requires |t| < |p| ==> IsSep(p[|p| - |t| - 1])
    ensures NoSep(t + [c])
    ensures (p + [c])[|p| - |t|..] == t + [c]
    ensures |t| < |p| ==> IsSep((p + [c])[|p| - |t| - 1])
  {
    var s := p + [c];
    assert s[|p| - |t|..] == p[|p| - |t|..] + [c];
    if |t| < |p| {
      assert s[|p| - |t| - 1] == p[|p| - |t| - 1];
    }
    NoSepAppend(t, [c]);
  }

  lemma NoSepAppend(a: string, b: string)
    requires NoSep(a) && NoSep(b)
    ensures NoSep(a + b)
  {
    forall i | 0 <= i < |a + b| ensures !IsSep((a + b)[i]) {
      if i < |a| { assert (a + b)[i] == a[i]; } else { assert (a + b)[i] == b[i - |a|]; }
    }
  }

  lemma AppendCancel(a: string, b: string, c: string)
    requires a + c == b + c
    ensures a == b
  {
    assert |a| == |b|;
    assert a == (a + c)[..|a|];
    assert b == (b + c)[..|b|];
  }

  /** os.path.basename on Windows: drop a drive prefix such as `C:`, then
      keep what follows the last `\` or `/`. */
  function BaseName(path: string): (b: string)
    ensures NoSep(b)
    ensures |b| <= |path| && path[|path| - |b|..] == b
    ensures var n := |path| - |b|;
      && (n == 0 || IsSep(path[n - 1]) || (n == 2 && path[1] == ':'))
      && (|path| >= 2 && path[1] == ':' ==> n >= 2)
  {
    var rest := if |path| >= 2 && path[1] == ':' then path[2..] else path;
    var b := AfterLastSep(rest);
    assert path[|path| - |b|..] == rest[|rest| - |b|..];
    b
  }

  /** Index of the last `.` in `s`, if any. */
  function LastDot(s: string): (r: Option<nat>)
    ensures r.Some? ==> r.value < |s| && s[r.value] == '.' && '.' !in s[r.value + 1..]
    ensures r.None? ==> '.' !in s
  {
    if s == [] then None
    else if s[|s| - 1] == '.' then Some(|s| - 1)
    else
      var p := s[..|s| - 1];
      var r := LastDot(p);
      assert s == p + [s[|s| - 1]];
      DotSnoc(p, s[|s| - 1], r);
      r
  }

  lemma DotSnoc(p: string, c: char, r: Option<nat>)
    requires c != '.'
    requires r.Some? ==> r.value < |p| && p[r.value] == '.' && '.' !in p[r.value + 1..]
    requires r.None? ==> '.' !in p
    ensures r.Some? ==> (p + [c])[r.value] == '.' && '.' !in (p + [c])[r.value + 1..]
    ensures r.None? ==> '.' !in p + [c]
  {
    if r.Some? {
      assert (p + [c])[r.value + 1..] == p[r.value + 1..] + [c];
    }
  }

  /** os.path.splitext(name)[0] for a name without separators: cut at the
      last dot unless only dots precede it (so `.bashrc` keeps its name). */
  function DropExtension(name: string): (root: string)
    ensures |root| <= |name| && name[..|root|] == root
    ensures root == name || name[|root|] == '.'
    ensures root != name ==> '.' !in name[|root| + 1..]
    ensures root == name <==> LastDot(name).None? || forall j | 0 <= j < LastDot(name).value :: name[j] == '.'
  {
    match LastDot(name)
    case None => name
    case Some(d) =>
      if exists j | 0 <= j < d :: name[j] != '.' then name[..d] else name
  }

  /** The name an input file contributes to its cleaned output. */
  function Stem(path: string): (s: string)
    ensures IsPrefix(s, BaseName(path))
  {
    DropExtension(BaseName(path))
  }

  lemma NoSepPrefix(s: string, b: string)
    requires NoSep(b) && |s| <= |b| && b[..|s|] == s
    ensures NoSep(s)
  {
    assert forall i | 0 <= i < |s| :: s[i] == b[i];
  }

  const CleanedSuffix: string := "_cleaned.csv"

  /** `{stem}_{tag}_cleaned.csv`, the deterministic output file name. */
  function OutputName(path: string, tag: string): (n: string)
    ensures IsPrefix(Stem(path), n)
    ensures EndsWith(n, "_" + tag + CleanedSuffix)
    ensures |n| == |Stem(path)| + 1 + |tag| + |CleanedSuffix|
  {
    Stem(path) + ("_" + tag + CleanedSuffix)
  }

  /** os.path.join(folder, name). A bare drive folder `X:` is joined like
      any other folder, with a `\`, where ntpath.join would add none. */
  function Join(folder: string, name: string): (r: string)
    ensures EndsWith(r, name)
    ensures |folder| <= |r| && r[..|folder|] == folder
    ensures |r| - |name| - |folder| == (if folder == [] || IsSep(folder[|folder| - 1]) then 0 else 1)
    ensures |r| - |name| - |folder| == 1 ==> r[|folder|] == '\\'
  {
    var r := if folder == [] || IsSep(folder[|folder| - 1]) then folder + name else folder + "\\" + name;
    assert r[|r| - |name|..] == name;
    r
  }

  /** The part after the last separator is everything once a separator
      closes the front. */
  lemma {:induction false} AfterLastSepOf(front: string, name: string)
    requires front != [] && IsSep(front[|front| - 1]) && NoSep(name)
    ensures AfterLastSep(front + name) == name
  {
    if name == [] {
      assert front + name == front;
    } else {
      var s := front + name;
      var init := name[..|name| - 1];
      assert s[..|s| - 1] == front + init;
      assert s[|s| - 1] == name[|name| - 1];
      AfterLastSepOf(front, init);
      assert init + [name[|name| - 1]] == name;
    }
  }

  /** Joining a file name onto a folder and taking the base name gives the
      file name back. */
  lemma BaseNameOfJoin(folder: string, name: string)
    requires |folder| >= 2 && NoSep(name)
    ensures BaseName(Join(folder, name)) == name
  {
    var path := Join(folder, name);
    var front := path[..|path| - |name|];
    assert path == front + name;
    assert IsSep(front[|front| - 1]);
    if path[1] == ':' {
      assert |front| > 2;
      assert path[2..] == front[2..] + name;
      AfterLastSepOf(front[2..], name);
    } else {
      AfterLastSepOf(front, name);
    }
  }

  lemma {:induction false} LastDotAt(s: string, k: nat)
    requires k < |s| && s[k] == '.' && '.' !in s[k + 1..]
    ensures LastDot(s) == Some(k)
  {
    if k < |s| - 1 {
      assert s[|s| - 1] == s[k + 1..][|s| - 2 - k];
      assert s[..|s| - 1][k + 1..] == s[k + 1..][..|s| - 2 - k];
      LastDotAt(s[..|s| - 1], k);
    }
  }

  /** splitext cuts exactly the extension a name was given, as long as the
      root is not made of dots alone. */
  lemma DropExtensionOf(root: string, ext: string, i: nat)
    requires i < |root| && root[i] != '.' && '.' !in ext
    ensures DropExtension(root + "." + ext) == root
  {
    var name := root + "." + ext;
    assert name[|root|] == '.';
    assert name[|root| + 1..] == ext;
    LastDotAt(name, |root|);
    assert name[i] == root[i];
    assert name[..|root|] == root;
  }

  function OutputPath(folder: string, path: string, tag: string): (p: string)
    ensures IsPrefix(folder, p)
    ensures EndsWith(p, OutputName(path, tag))
    ensures |p| - |OutputName(path, tag)| - |folder| == (if folder == [] || IsSep(folder[|folder| - 1]) then 0 else 1)
    ensures |p| - |OutputName(path, tag)| - |folder| == 1 ==> p[|folder|] == '\\'
  {
    Join(folder, OutputName(path, tag))
  }

  /** The output name keeps the whole stem, carries the tag, and has no
      separator of its own when the tag has none: it always lands directly
      in the output folder. */
  lemma OutputNameShape(path: string, tag: string)
    requires NoSep(tag)
    ensures var n := OutputName(path, tag);
      && IsPrefix(Stem(path), n)
      && EndsWith(n, "_" + tag + CleanedSuffix)
      && NoSep(n)
  {
    var stem := Stem(path);
    var suffix := "_" + tag + CleanedSuffix;
    var n := stem + suffix;
    assert n[|n| - |suffix|..] == suffix;
    assert n[..|stem|] == stem;
    NoSepPrefix(stem, BaseName(path));
    NoSepLiterals();
    NoSepAppend("_", tag);
    NoSepAppend("_" + tag, CleanedSuffix);
    NoSepAppend(stem, suffix);
  }

  lemma NoSepLiterals()
    ensures NoSep("_") && NoSep(CleanedSuffix)
  {
    assert NoSep("_");
    forall i | 0 <= i < |CleanedSuffix| ensures !IsSep(CleanedSuffix[i]) {
    }
  }

  /** Two inputs share an output file exactly when their stems agree, so
      re-processing one input overwrites its own earlier output and
      nothing else. */
  lemma OutputNameCollides(p: string, q: string, tag: string)
    ensures OutputName(p, tag) == OutputName(q, tag) <==> Stem(p) == Stem(q)
  {
    if OutputName(p, tag) == OutputName(q, tag) {
      AppendCancel(Stem(p), Stem(q), "_" + tag + CleanedSuffix);
    }
  }

  /** The cleaned file sits directly in the output folder under its
      output name. */
  lemma OutputPathName(folder: string, path: string, tag: string)
    requires |folder| >= 2 && NoSep(tag)
    ensures BaseName(OutputPath(folder, path, tag)) == OutputName(path, tag)
    ensures IsPrefix(folder, OutputPath(folder, path, tag))
  {
    OutputNameShape(path, tag);
    BaseNameOfJoin(folder, OutputName(path, tag));
  }
}

=== FILE: session_edits.dfy ===
/** Saving the app's two editing grids back into the session frame: the
    Outflow tab's "Apply Changes" and the Inflow tab's "Save Inflow
    Changes". Both also teach the category table the merchants of the
    rows they keep. The grids' contents are inputs. */
module SessionEdits {
  import opened Wrappers
  import opened Text
  import opened Frames
  import opened Categorizer

  /** A row of the outflow grid as the user left it, with its Delete tick. */
  datatype EditedRow = EditedRow(row: Txn, delete: bool)

  /** Session rows that are not outflows: a recorded Outflow of at most
      zero. A missing Outflow compares false and is not kept. */
  predicate NoOutflow(r: Txn) {
    r.outflow.Some? && r.outflow.value <= 0
  }

  /** Session rows that are not inflows, by the same rule on Inflow. */
  predicate NoInflow(r: Txn) {
    r.inflow.Some? && r.inflow.value <= 0
  }

  /** An inflow as the Inflow tab selects it. */
  predicate IsInflow(r: Txn) {
    r.inflow.Some? && r.inflow.value > 0
  }

  function Select(rows: seq<Txn>, p: Txn -> bool): (r: seq<Txn>)
    ensures |r| <= |rows|
    ensures forall k :: 0 <= k < |r| ==> p(r[k]) && r[k] in rows
    ensures forall x :: x in rows && p(x) ==> x in r
  {
    if rows == [] then []
    else (if p(rows[0]) then [rows[0]] else []) + Select(rows[1..], p)
  }

  /** Each selected row occurs in the selection as often as in the input;
      every other row does not occur at all. */
  lemma {:induction false} SelectCounts(rows: seq<Txn>, p: Txn -> bool)
    ensures forall x :: multiset(Select(rows, p))[x] == (if p(x) then multiset(rows)[x] else 0)
  {
    if rows != [] {
      assert rows == [rows[0]] + rows[1..];
      SelectCounts(rows[1..], p);
    }
  }

  /** Selecting from two stretches of rows is selecting from each in turn,
      so the selection keeps the rows' order. */
  lemma {:induction false} SelectAppend(a: seq<Txn>, b: seq<Txn>, p: Txn -> bool)
    ensures Select(a + b, p) == Select(a, p) + Select(b, p)
  {
    if a == [] {
      assert a + b == b;
    } else {
      assert (a + b)[0] == a[0];
      assert (a + b)[1..] == a[1..] + b;
      SelectAppend(a[1..], b, p);
    }
  }

  /** A row as the outflow grid gives it back: only the shown columns
      (Date, Description, Merchant, Category, and Outflow or, in the legacy
      layout, Amount) survive, and the money column is made numeric with
      a missing value read as 0. */
  function Shown(r: Txn, split: bool, amountShown: bool): (s: Txn)
    ensures s.date == r.date && s.description == r.description
    ensures s.merchant == r.merchant && s.category == r.category
    ensures s.inflow.None? && s.source.None?
    ensures split ==> s.amount.None? && s.outflow.Some?
    ensures !split ==> s.outflow.None? && (s.amount.Some? <==> amountShown)
    ensures s.outflow.Some? && r.outflow.Some? ==> s.outflow == r.outflow
    ensures s.amount.Some? && r.amount.Some? ==> s.amount == r.amount
    ensures split && r.outflow.None? ==> s.outflow == Some(0)
    ensures !split && amountShown && r.amount.None? ==> s.amount == Some(0)
  {
    Txn(r.date, r.description, r.merchant,
        if !split && amountShown then Some(r.amount.GetOr(0)) else None,
        None,
        if split then Some(r.outflow.GetOr(0)) else None,
        None, r.category)
  }

  /** The rows left after dropping the ticked ones, as the grid shows them. */
  function KeptRows(edited: seq<EditedRow>, split: bool, amountShown: bool): (r: seq<Txn>)
    ensures |r| <= |edited|
  {
    if edited == [] then []
    else
      (if edited[0].delete then [] else [Shown(edited[0].row, split, amountShown)])
      + KeptRows(edited[1..], split, amountShown)
  }

  /** How many rows are not ticked for deletion. */
  function Untouched(edited: seq<EditedRow>): (n: nat)
    ensures n <= |edited|
  {
    if edited == [] then 0
    else (if edited[0].delete then 0 else 1) + Untouched(edited[1..])
  }

  /** Keep-rows are exactly the unticked rows, one for one. */
  lemma {:induction false} KeptRowsCount(edited: seq<EditedRow>, split: bool, amountShown: bool)
    ensures |KeptRows(edited, split, amountShown)| == Untouched(edited)
    ensures (forall k :: 0 <= k < |edited| ==> edited[k].delete) <==> KeptRows(edited, split, amountShown) == []
  {
    if edited != [] {
      KeptRowsCount(edited[1..], split, amountShown);
      assert forall k :: 1 <= k < |edited| ==> edited[1..][k - 1] == edited[k];
    }
  }

  /** The text the learning step reads for a row's merchant:
      `str(value).strip()`, so a NaN merchant reads as "nan". */
  function LearnText(r: Txn): string {
    Strip(MerchantText(r))
  }

  /** Whether a kept row teaches the table its merchant. */
  predicate Teaches(t: Table, r: Txn) {
    LearnText(r) != [] && r.category.Some? && HasCategory(t, r.category.value)
  }

  /** Names stay where they are: a table whose names match position by
      position has the same category indices. */
  predicate SameNames(a: Table, b: Table) {
    |a| == |b| && forall j :: 0 <= j < |a| ==> a[j].0 == b[j].0
  }

  /** Every keyword list of `a` is a prefix of the one at the same place
      in `b`, which has the same names. */
  predicate Grows(a: Table, b: Table) {
    SameNames(a, b) && forall j :: 0 <= j < |a| ==> a[j].1 <= b[j].1
  }

  lemma GrowsTransitive(a: Table, b: Table, c: Table)
    requires Grows(a, b) && Grows(b, c)
    ensures Grows(a, c)
  {
    forall j | 0 <= j < |a| ensures a[j].1 <= c[j].1 {
      assert a[j].1 <= b[j].1 <= c[j].1;
    }
  }

  lemma SameNamesIndex(a: Table, b: Table, name: string)
    requires SameNames(a, b)
    ensures IndexOf(a, name) == IndexOf(b, name)
    ensures HasCategory(a, name) <==> HasCategory(b, name)
  {
    match IndexOf(a, name)
    case None =>
    case Some(i) =>
  }

  /** Step 4 of the outflow save: each kept row's merchant is added to its
      category's keywords, row by row in grid order. */
  function LearnFromRows(t: Table, rows: seq<Txn>): (r: Table)
    ensures Grows(t, r)
    decreases |rows|
  {
    if rows == [] then t
    else
      var t1 := if Teaches(t, rows[0]) then AddKeyword(t, rows[0].category.value, LearnText(rows[0])).value.table else t;
      AddKeywordGrows(t, rows[0]);
      var r := LearnFromRows(t1, rows[1..]);
      GrowsTransitive(t, t1, r);
      r
  }

  lemma AddKeywordGrows(t: Table, row: Txn)
    ensures Teaches(t, row) ==> Grows(t, AddKeyword(t, row.category.value, LearnText(row)).value.table)
  {
    if Teaches(t, row) {
      AddKeywordKeeps(t, row.category.value, LearnText(row));
    }
  }

  /** A row that teaches puts its merchant in its category's list. */
  lemma AddKeywordLearns(t: Table, row: Txn)
    requires Teaches(t, row)
    ensures LearnText(row) in AddKeyword(t, row.category.value, LearnText(row)).value.table[IndexOf(t, row.category.value).value].1
  {
    StripIdempotent(MerchantText(row));
  }

  lemma GrowsKeeps(a: Table, b: Table, i: nat, x: string)
    requires Grows(a, b) && i < |a| && x in a[i].1
    ensures x in b[i].1
  {
    assert a[i].1 <= b[i].1;
  }

  /** After the save, every kept row with a merchant and a known category
      has that merchant among its category's keywords. */
  lemma {:induction false} LearnFromRowsLearns(t: Table, rows: seq<Txn>)
    ensures forall k :: 0 <= k < |rows| && Teaches(t, rows[k]) ==>
      LearnText(rows[k]) in LearnFromRows(t, rows)[IndexOf(t, rows[k].category.value).value].1
    decreases |rows|
  {
    if rows != [] {
      var t1 := if Teaches(t, rows[0]) then AddKeyword(t, rows[0].category.value, LearnText(rows[0])).value.table else t;
      var r := LearnFromRows(t, rows);
      assert r == LearnFromRows(t1, rows[1..]);
      AddKeywordGrows(t, rows[0]);
      LearnFromRowsLearns(t1, rows[1..]);
      forall k | 0 <= k < |rows| && Teaches(t, rows[k])
        ensures LearnText(rows[k]) in r[IndexOf(t, rows[k].category.value).value].1
      {
        var c := rows[k].category.value;
        SameNamesIndex(t, t1, c);
        var i := IndexOf(t, c).value;
        if k == 0 {
          AddKeywordLearns(t, rows[0]);
          GrowsKeeps(t1, r, i, LearnText(rows[0]));
        } else {
          assert rows[1..][k - 1] == rows[k];
        }
      }
    }
  }

  /** `x` is the merchant of one of the rows that teaches `t`, and that
      row's category sits at position `j`. */
  ghost predicate TaughtBy(t: Table, rows: seq<Txn>, j: nat, x: string) {
    exists k :: 0 <= k < |rows| && Teaches(t, rows[k])
      && IndexOf(t, rows[k].category.value) == Some(j) && LearnText(rows[k]) == x
  }

  /** The learning step adds nothing else: every keyword a list gains is
      the merchant of a teaching row filed under that list's category. */
  lemma {:induction false} LearnFromRowsOnly(t: Table, rows: seq<Txn>)
    ensures var r := LearnFromRows(t, rows);
      forall j, x :: 0 <= j < |t| && x in r[j].1[|t[j].1|..] ==> TaughtBy(t, rows, j, x)
    decreases |rows|
  {
    if rows != [] {
      var t1 := if Teaches(t, rows[0]) then AddKeyword(t, rows[0].category.value, LearnText(rows[0])).value.table else t;
      var r := LearnFromRows(t, rows);
      assert r == LearnFromRows(t1, rows[1..]);
      AddKeywordGrows(t, rows[0]);
      LearnFromRowsOnly(t1, rows[1..]);
      forall j, x | 0 <= j < |t| && x in r[j].1[|t[j].1|..]
        ensures TaughtBy(t, rows, j, x)
      {
        FirstGains(t, t1, r, j, x);
        if x in t1[j].1[|t[j].1|..] {
          FirstTaught(t, rows[0], j, x);
        } else {
          TaughtByShift(t, t1, rows, j, x);
        }
      }
    }
  }

  /** A row past the first that teaches the partly learned table teaches
      the original one into the same place. */
  lemma TaughtByShift(t: Table, t1: Table, rows: seq<Txn>, j: nat, x: string)
    requires SameNames(t, t1) && rows != []
    requires TaughtBy(t1, rows[1..], j, x)
    ensures TaughtBy(t, rows, j, x)
  {
    var k :| 0 <= k < |rows[1..]| && Teaches(t1, rows[1..][k])
      && IndexOf(t1, rows[1..][k].category.value) == Some(j) && LearnText(rows[1..][k]) == x;
    assert rows[1..][k] == rows[k + 1];
    SameNamesIndex(t, t1, rows[k + 1].category.value);
  }

  /** A keyword a list gains over two steps is gained in one of them. */
  lemma FirstGains(t: Table, t1: Table, r: Table, j: nat, x: string)
    requires Grows(t, t1) && Grows(t1, r) && j < |t|
    requires x in r[j].1[|t[j].1|..]
    ensures x in t1[j].1[|t[j].1|..] || x in r[j].1[|t1[j].1|..]
  {
    var a, b, c := t[j].1, t1[j].1, r[j].1;
    assert a <= b <= c;
    var i :| |a| <= i < |c| && c[i] == x;
    if i < |b| {
      assert b[i] == x;
      assert b[|a|..][i - |a|] == x;
    } else {
      assert c[|b|..][i - |b|] == x;
    }
  }

  /** What the first row adds to the table is its own merchant, under its
      own category. */
  lemma FirstTaught(t: Table, row: Txn, j: nat, x: string)
    requires j < |t|
    requires x in (if Teaches(t, row) then AddKeyword(t, row.category.value, LearnText(row)).value.table else t)[j].1[|t[j].1|..]
    ensures Teaches(t, row) && IndexOf(t, row.category.value) == Some(j) && LearnText(row) == x
  {
    if Teaches(t, row) {
      StripIdempotent(MerchantText(row));
      var t1 := AddKeyword(t, row.category.value, LearnText(row)).value.table;
      var i := IndexOf(t, row.category.value).value;
      if t1 != t && j == i {
        assert t1[j].1 == t[j].1 + [LearnText(row)];
        assert t1[j].1[|t[j].1|..] == [LearnText(row)];
      }
    }
  }

  /** The columns the outflow grid shows in the legacy layout. */
  const LegacyShown: set<string> := {"Date", "Description", "Merchant", "Amount", "Category"}

  /** The Outflow tab's save. With separate Inflow and Outflow columns the
      session keeps its non-outflow rows and takes the kept grid rows after
      them; in the legacy layout the kept grid rows replace the session.
      Learning runs when the grid shows both Merchant and Category. */
  function SaveOutflow(session: Frame, edited: seq<EditedRow>, t: Table): (r: (Frame, Table))
    ensures var kept := KeptRows(edited, HasSplitColumns(session), AmountColumn in session.columns);
      && (HasSplitColumns(session) ==> r.0.rows == Select(session.rows, NoOutflow) + kept && r.0.columns == session.columns)
      && (!HasSplitColumns(session) ==> r.0.rows == kept && r.0.columns == session.columns * LegacyShown)
    ensures Grows(t, r.1)
    ensures MerchantColumn !in session.columns || CategoryColumn !in session.columns ==> r.1 == t
    ensures MerchantColumn in session.columns && CategoryColumn in session.columns ==>
      r.1 == LearnFromRows(t, KeptRows(edited, HasSplitColumns(session), AmountColumn in session.columns))
  {
    var split := HasSplitColumns(session);
    var kept := KeptRows(edited, split, AmountColumn in session.columns);
    var table := if MerchantColumn in session.columns && CategoryColumn in session.columns then LearnFromRows(t, kept) else t;
    if split then (Frame(session.columns, Select(session.rows, NoOutflow) + kept), table)
    else (Frame(session.columns * LegacyShown, kept), table)
  }

  /** In the split layout the outflow save drops every session row whose
      Outflow is missing, such as a positive row of a split Amount file,
      unless the grid gives it back. */
  lemma MissingOutflowDropped(session: Frame, edited: seq<EditedRow>, t: Table, x: Txn)
    requires HasSplitColumns(session)
    requires x in session.rows && x.outflow.None?
    ensures x !in Select(session.rows, NoOutflow)
    ensures x !in SaveOutflow(session, edited, t).0.rows[..|Select(session.rows, NoOutflow)|]
  {
  }

  /** Deleting nothing and saving keeps the row count: non-outflow rows
      plus every grid row. */
  lemma SaveOutflowCount(session: Frame, edited: seq<EditedRow>, t: Table)
    requires HasSplitColumns(session)
    ensures |SaveOutflow(session, edited, t).0.rows| == |Select(session.rows, NoOutflow)| + Untouched(edited)
  {
    KeptRowsCount(edited, true, AmountColumn in session.columns);
  }

  /** A row of the inflow grid: the cells the code reads back, and the
      Delete tick. */
  datatype InflowEdit = InflowEdit(merchant: Option<string>, inflow: Option<int>, category: Option<string>, delete: bool)

  /** How the Inflow tab's save ends: the session replaced, left alone
      because every row was deleted, or abandoned part way by an error
      (keywords learned before it stay learned). */
  datatype InflowSave = Saved(session: Frame, table: Table) | AllDeleted(table: Table) | Aborted(table: Table)

  /** The category the saved row gets: the grid's when it shows Category,
      otherwise "Uncategorized". */
  function NewCategory(columns: set<string>, e: InflowEdit): Option<string> {
    if CategoryColumn in columns then e.category else Some(Uncategorized)
  }

  function OldCategory(columns: set<string>, original: Txn): Option<string> {
    if CategoryColumn in columns then original.category else Some(Uncategorized)
  }

  /** Whether `after != before` holds in Python, where NaN differs from itself. */
  predicate CategoryChanged(before: Option<string>, after: Option<string>) {
    before.None? || after.None? || before != after
  }

  function InflowLearnText(columns: set<string>, e: InflowEdit): string {
    if MerchantColumn in columns then Strip(e.merchant.GetOr("nan")) else ""
  }

  /** The original inflow row with only its Inflow and Category replaced
      by the grid's. */
  function Updated(columns: set<string>, original: Txn, e: InflowEdit): (r: Txn)
    ensures r.inflow == e.inflow && r.category == NewCategory(columns, e)
  {
    original.(inflow := e.inflow, category := NewCategory(columns, e))
  }

  /** The row is the Updated form of an unticked grid row and the inflow
      row at the same position. */
  ghost predicate FromGrid(columns: set<string>, originals: seq<Txn>, edits: seq<InflowEdit>, row: Txn) {
    exists i :: 0 <= i < |originals| && i < |edits| && !edits[i].delete && row == Updated(columns, originals[i], edits[i])
  }

  /** Every kept row comes from the grid that way. */
  ghost predicate Paired(columns: set<string>, originals: seq<Txn>, edits: seq<InflowEdit>, kept: seq<Txn>) {
    forall k :: 0 <= k < |kept| ==> FromGrid(columns, originals, edits, kept[k])
  }

  /** Pairings found one position further on still hold. */
  lemma PairedShift(columns: set<string>, originals: seq<Txn>, edits: seq<InflowEdit>, kept: seq<Txn>)
    requires originals != [] && edits != []
    requires Paired(columns, originals[1..], edits[1..], kept)
    ensures Paired(columns, originals, edits, kept)
  {
    var o1 := originals[1..];
    var e1 := edits[1..];
    forall k | 0 <= k < |kept|
      ensures FromGrid(columns, originals, edits, kept[k])
    {
      assert FromGrid(columns, o1, e1, kept[k]);
      var i :| 0 <= i < |o1| && i < |e1| && !e1[i].delete && kept[k] == Updated(columns, o1[i], e1[i]);
      assert o1[i] == originals[i + 1] && e1[i] == edits[i + 1];
    }
  }

  lemma PairedCons(columns: set<string>, originals: seq<Txn>, edits: seq<InflowEdit>, kept: seq<Txn>)
    requires originals != [] && edits != [] && !edits[0].delete
    requires Paired(columns, originals, edits, kept)
    ensures Paired(columns, originals, edits, [Updated(columns, originals[0], edits[0])] + kept)
  {
    var all := [Updated(columns, originals[0], edits[0])] + kept;
    forall k | 0 <= k < |all|
      ensures FromGrid(columns, originals, edits, all[k])
    {
      if k == 0 {
        assert all[0] == Updated(columns, originals[0], edits[0]);
      } else {
        assert all[k] == kept[k - 1];
      }
    }
  }

  /** How many grid rows have an inflow row to pair with: the grid rows
      past the last inflow row are never read. */
  function Overlap(originals: seq<Txn>, edits: seq<InflowEdit>): nat {
    if |originals| < |edits| then |originals| else |edits|
  }

  /** How many inflow grid rows are not ticked for deletion. */
  function UntickedEdits(edits: seq<InflowEdit>): (n: nat)
    ensures n <= |edits|
  {
    if edits == [] then 0
    else (if edits[0].delete then 0 else 1) + UntickedEdits(edits[1..])
  }

  /** Some grid row that pairs with an inflow row is left unticked. */
  ghost predicate SomeKept(originals: seq<Txn>, edits: seq<InflowEdit>) {
    exists i :: 0 <= i < |originals| && i < |edits| && !edits[i].delete
  }

  /** The rows the inflow save keeps when nothing raises: each unticked
      grid row, in grid order, made Updated against the inflow row at its
      position. */
  function InflowKept(columns: set<string>, originals: seq<Txn>, edits: seq<InflowEdit>): (r: seq<Txn>)
    ensures |r| == UntickedEdits(edits[..Overlap(originals, edits)])
    ensures r != [] <==> SomeKept(originals, edits)
    decreases |edits|
  {
    if edits == [] || originals == [] then []
    else
      var rest := InflowKept(columns, originals[1..], edits[1..]);
      var m := Overlap(originals, edits);
      assert edits[..m][1..] == edits[1..][..Overlap(originals[1..], edits[1..])];
      assert SomeKept(originals[1..], edits[1..]) ==> SomeKept(originals, edits) by {
        if SomeKept(originals[1..], edits[1..]) {
          var i :| 0 <= i < |originals[1..]| && i < |edits[1..]| && !edits[1..][i].delete;
          assert !edits[i + 1].delete;
        }
      }
      assert SomeKept(originals, edits) && edits[0].delete ==> SomeKept(originals[1..], edits[1..]) by {
        if SomeKept(originals, edits) && edits[0].delete {
          var i :| 0 <= i < |originals| && i < |edits| && !edits[i].delete;
          assert edits[1..][i - 1] == edits[i];
        }
      }
      (if edits[0].delete then [] else [Updated(columns, originals[0], edits[0])]) + rest
  }

  /** Grid row `e`, paired with inflow row `original`, raises: its
      merchant is not blank and its category changed, so the merchant is
      taught to a category the table does not have (or to NaN). */
  predicate Raises(columns: set<string>, original: Txn, e: InflowEdit, t: Table) {
    var chosen := NewCategory(columns, e);
    && InflowLearnText(columns, e) != []
    && CategoryChanged(OldCategory(columns, original), chosen)
    && (chosen.None? || !HasCategory(t, chosen.value))
  }

  /** Some unticked grid row, paired with an inflow row, raises. */
  ghost predicate AnyRaises(columns: set<string>, originals: seq<Txn>, edits: seq<InflowEdit>, t: Table) {
    exists i :: 0 <= i < |originals| && i < |edits| && !edits[i].delete && Raises(columns, originals[i], edits[i], t)
  }

  /** Learning keeps the names, so whether a row raises does not change
      as the pass goes on. */
  lemma RaisesSameNames(columns: set<string>, original: Txn, e: InflowEdit, a: Table, b: Table)
    requires SameNames(a, b)
    ensures Raises(columns, original, e, a) <==> Raises(columns, original, e, b)
  {
    var chosen := NewCategory(columns, e);
    if chosen.Some? {
      SameNamesIndex(a, b, chosen.value);
    }
  }

  /** Past a first row that does not raise, a later row raises against
      the table the pass has learned into exactly when it raises against
      the original table. */
  lemma AnyRaisesStep(columns: set<string>, originals: seq<Txn>, edits: seq<InflowEdit>, t: Table, t1: Table)
    requires originals != [] && edits != [] && SameNames(t, t1)
    requires edits[0].delete || !Raises(columns, originals[0], edits[0], t)
    ensures AnyRaises(columns, originals, edits, t) <==> AnyRaises(columns, originals[1..], edits[1..], t1)
  {
    var o1 := originals[1..];
    var e1 := edits[1..];
    if AnyRaises(columns, originals, edits, t) {
      var i :| 0 <= i < |originals| && i < |edits| && !edits[i].delete && Raises(columns, originals[i], edits[i], t);
      assert i > 0;
      assert o1[i - 1] == originals[i] && e1[i - 1] == edits[i];
      RaisesSameNames(columns, originals[i], edits[i], t, t1);
    }
    if AnyRaises(columns, o1, e1, t1) {
      var i :| 0 <= i < |o1| && i < |e1| && !e1[i].delete && Raises(columns, o1[i], e1[i], t1);
      assert o1[i] == originals[i + 1] && e1[i] == edits[i + 1];
      RaisesSameNames(columns, o1[i], e1[i], t, t1);
    }
  }

  /** The row-by-row pass over the inflow grid: grid row i pairs with
      inflow row i, and grid rows past the last inflow row are skipped. An
      unticked row is kept as Updated, and a changed category teaches the
      table the merchant; a category that is not in the table raises and
      ends the pass. */
  function InflowPass(columns: set<string>, originals: seq<Txn>, edits: seq<InflowEdit>, t: Table): (r: Result<(seq<Txn>, Table), Table>)
    ensures r.Failure? <==> AnyRaises(columns, originals, edits, t)
    ensures r.Success? ==> r.value.0 == InflowKept(columns, originals, edits)
    ensures r.Success? ==> |r.value.0| <= |edits| && Grows(t, r.value.1)
    ensures r.Success? ==> Paired(columns, originals, edits, r.value.0)
    ensures r.Failure? ==> Grows(t, r.error)
    ensures (forall i :: 0 <= i < |edits| ==> edits[i].delete) ==> r == Success(([], t))
    decreases |edits|
  {
    if edits == [] || originals == [] then Success(([], t))
    else if edits[0].delete then
      var rest := InflowPass(columns, originals[1..], edits[1..], t);
      assert rest.Success? ==> Paired(columns, originals, edits, rest.value.0) by {
        if rest.Success? { PairedShift(columns, originals, edits, rest.value.0); }
      }
      AnyRaisesStep(columns, originals, edits, t, t);
      rest
    else
      var e := edits[0];
      if Raises(columns, originals[0], e, t) then
        assert AnyRaises(columns, originals, edits, t);
        Failure(t)
      else
        var merchant := InflowLearnText(columns, e);
        var chosen := NewCategory(columns, e);
        var learns := merchant != [] && CategoryChanged(OldCategory(columns, originals[0]), chosen);
        var t1 := if learns then AddKeyword(t, chosen.value, merchant).value.table else t;
        assert Grows(t, t1) by {
          if learns { AddKeywordKeeps(t, chosen.value, merchant); }
        }
        AnyRaisesStep(columns, originals, edits, t, t1);
        match InflowPass(columns, originals[1..], edits[1..], t1)
        case Failure(t2) =>
          GrowsTransitive(t, t1, t2);
          Failure(t2)
        case Success((kept, t2)) =>
          GrowsTransitive(t, t1, t2);
          PairedShift(columns, originals, edits, kept);
          PairedCons(columns, originals, edits, kept);
          Success(([Updated(columns, originals[0], e)] + kept, t2))
  }

  /** The Inflow tab's save on the frame the tab shows, which has separate
      Inflow and Outflow columns. The saved session is the frame's
      non-inflow rows followed by the kept inflow rows; the rows the tab
      edited carry its Delete column, and a Category column when the frame
      had none. The save is abandoned exactly when a kept row raises, and
      leaves the session alone exactly when no paired row is kept. */
  function SaveInflow(display: Frame, edits: seq<InflowEdit>, t: Table): (r: InflowSave)
    requires HasSplitColumns(display)
    ensures r.Aborted? <==> AnyRaises(display.columns, Select(display.rows, IsInflow), edits, t)
    ensures r.AllDeleted? <==> !SomeKept(Select(display.rows, IsInflow), edits)
    ensures r.Saved? ==> r.session.columns == display.columns + {"Delete", CategoryColumn}
    ensures r.Saved? ==> |Select(display.rows, NoInflow)| < |r.session.rows| <= |Select(display.rows, NoInflow)| + |edits|
    ensures r.Saved? ==> r.session.rows[..|Select(display.rows, NoInflow)|] == Select(display.rows, NoInflow)
    ensures r.Saved? ==>
      r.session.rows[|Select(display.rows, NoInflow)|..] == InflowKept(display.columns, Select(display.rows, IsInflow), edits)
    ensures r.Saved? ==> Paired(display.columns, Select(display.rows, IsInflow), edits,
      r.session.rows[|Select(display.rows, NoInflow)|..])
    ensures Grows(t, r.table)
    ensures (forall i :: 0 <= i < |edits| ==> edits[i].delete) ==> r == AllDeleted(t)
  {
    var originals := Select(display.rows, IsInflow);
    match InflowPass(display.columns, originals, edits, t)
    case Failure(t1) =>
      assert SomeKept(originals, edits) by {
        var i :| 0 <= i < |originals| && i < |edits| && !edits[i].delete && Raises(display.columns, originals[i], edits[i], t);
      }
      Aborted(t1)
    case Success((kept, t1)) =>
      if kept == [] then AllDeleted(t1)
      else
        var stay := Select(display.rows, NoInflow);
        var rows := stay + kept;
        assert rows[..|stay|] == stay;
        assert rows[|stay|..] == kept;
        Saved(Frame(display.columns + {"Delete", CategoryColumn}, rows), t1)
  }

  /** Only Inflow and Category are taken from the grid: edits to a row's
      date, description or merchant are not saved. */
  lemma InflowKeepsOtherFields(columns: set<string>, original: Txn, e: InflowEdit)
    ensures var r := Updated(columns, original, e);
      && r.date == original.date && r.description == original.description
      && r.merchant == original.merchant && r.amount == original.amount
      && r.outflow == original.outflow && r.source == original.source
  {
  }

  /** A session row without any Inflow value is neither kept as a
      non-inflow nor offered for editing, so the save loses it. */
  lemma MissingInflowDropped(display: Frame, x: Txn)
    requires x.inflow.None?
    ensures x !in Select(display.rows, NoInflow) && x !in Select(display.rows, IsInflow)
  {
  }
}

=== FILE: text.dfy ===
/** Character-level helpers mirroring the Python string methods the
    pipeline uses: str.strip, str.lower, `in`, str.endswith,
    str.replace(c, ""), and the ntpath basename/splitext pair. */
module Text {

  /** ASCII whitespace as Python's str.strip() sees it. */
  predicate IsSpace(c: char) {
    c == ' ' || c == '\t' || c == '\n' || c == '\r' || c == '\U{0B}' || c == '\U{0C}'
    || ('\U{1C}' <= c <= '\U{1F}')
  }

  predicate AllSpace(s: string) {
    forall i :: 0 <= i < |s| ==> IsSpace(s[i])
  }

  /** `r` occurs in `s` at `i` with only whitespace around it. */
  predicate StripsAt(s: string, i: nat, r: string) {
    i + |r| <= |s| && s[i..i + |r|] == r && AllSpace(s[..i]) && AllSpace(s[i + |r|..])
  }

  /** `r` is `s` with whitespace padding removed on both sides. */
  ghost predicate StrippedFrom(r: string, s: string) {
    && (r == [] || (!IsSpace(r[0]) && !IsSpace(r[|r| - 1])))
    && exists i: nat :: StripsAt(s, i, r)
  }

  /** Python's str.strip() with no argument: whitespace is dropped from the
      front, then from the back, until neither end is whitespace. */
  function Strip(s: string): (r: string)
    ensures |r| <= |s|
  {
    if s != [] && IsSpace(s[0]) then Strip(s[1..])
    else if s != [] && IsSpace(s[|s| - 1]) then Strip(s[..|s| - 1])
    else s
  }

  /** Number of characters Strip removes from the front of `s`. */
  function StripOffset(s: string): (n: nat)
    ensures n + |Strip(s)| <= |s|
  {
    if s != [] && IsSpace(s[0]) then 1 + StripOffset(s[1..])
    else if s != [] && IsSpace(s[|s| - 1]) then StripOffset(s[..|s| - 1])
    else 0
  }

  /** The stripped text is a piece of the input, and everything the input
      holds around that piece is whitespace. */
  lemma StripSpec(s: string)
    ensures StrippedFrom(Strip(s), s)
  {
    StripShape(s);
    StripAt(s);
  }

  /** Neither end of the stripped text is whitespace. */
  lemma {:induction false} StripShape(s: string)
    ensures var r := Strip(s); r == [] || (!IsSpace(r[0]) && !IsSpace(r[|r| - 1]))
  {
    if s != [] && IsSpace(s[0]) {
      StripShape(s[1..]);
    } else if s != [] && IsSpace(s[|s| - 1]) {
      StripShape(s[..|s| - 1]);
    }
  }

  /** The stripped text sits in the input at StripOffset, with only
      whitespace before and after it. */
  lemma {:induction false} StripAt(s: string)
    ensures StripsAt(s, StripOffset(s), Strip(s))
  {
    if s != [] && IsSpace(s[0]) {
      StripAt(s[1..]);
      PaddedAtFront(s, StripOffset(s[1..]), Strip(s[1..]));
    } else if s != [] && IsSpace(s[|s| - 1]) {
      StripAt(s[..|s| - 1]);
      PaddedAtBack(s, StripOffset(s[..|s| - 1]), Strip(s[..|s| - 1]));
    } else {
      assert s[0..|s|] == s && s[..0] == [] && s[|s|..] == [];
    }
  }

  /** A piece of `s[1..]` with whitespace around it, where `s[0]` is
      whitespace too, is such a piece of `s`, one position further on. */
  lemma PaddedAtFront(s: string, i: nat, r: string)
    requires s != [] && IsSpace(s[0]) && StripsAt(s[1..], i, r)
    ensures StripsAt(s, i + 1, r)
  {
    var head := s[..i + 1];
    forall j | 0 <= j < |head| ensures IsSpace(head[j]) {
      if j > 0 { assert head[j] == s[1..][..i][j - 1]; }
    }
    assert s[i + 1 + |r|..] == s[1..][i + |r|..];
  }

  /** A piece of `s[..|s| - 1]` with whitespace around it, where the last
      character of `s` is whitespace too, is such a piece of `s`. */
  lemma PaddedAtBack(s: string, i: nat, r: string)
    requires s != [] && IsSpace(s[|s| - 1]) && StripsAt(s[..|s| - 1], i, r)
    ensures StripsAt(s, i, r)
  {
    var front := s[..|s| - 1];
    assert s[i..i + |r|] == front[i..i + |r|];
    assert s[..i] == front[..i];
    var rest := front[i + |r|..];
    var tail := s[i + |r|..];
    assert tail == rest + [s[|s| - 1]];
    forall j | 0 <= j < |tail| ensures IsSpace(tail[j]) {
      if j < |rest| { assert tail[j] == rest[j]; }
    }
  }

  /** Stripping only removes characters. */
  lemma {:induction false} StripKeepsChars(s: string)
    ensures forall c :: c in Strip(s) ==> c in s
  {
    if s != [] && IsSpace(s[0]) {
      StripKeepsChars(s[1..]);
    } else if s != [] && IsSpace(s[|s| - 1]) {
      StripKeepsChars(s[..|s| - 1]);
    }
  }

  /** Stripping is idempotent. */
  lemma StripIdempotent(s: string)
    ensures Strip(Strip(s)) == Strip(s)
  {
  }

  /** A string made only of whitespace strips to nothing. */
  lemma {:induction false} AllSpaceStrips(s: string)
    requires AllSpace(s)
    ensures Strip(s) == []
  {
    if s != [] {
      assert AllSpace(s[1..]) by {
        forall i | 0 <= i < |s[1..]| ensures IsSpace(s[1..][i]) { assert s[1..][i] == s[i + 1]; }
      }
      AllSpaceStrips(s[1..]);
    }
  }

  /** Padding a string that has no outer whitespace with whitespace on
      either side and stripping gives the string back, so the promise of
      `StrippedFrom` determines the stripped text uniquely. */
  lemma StripPadded(pre: string, r: string, post: string)
    requires AllSpace(pre) && AllSpace(post)
    requires r == [] || (!IsSpace(r[0]) && !IsSpace(r[|r| - 1]))
    ensures Strip(pre + r + post) == r
  {
    var s := pre + r + post;
    if r == [] {
      assert AllSpace(s) by {
        forall i | 0 <= i < |s| ensures IsSpace(s[i]) {
          if i < |pre| { assert s[i] == pre[i]; } else { assert s[i] == post[i - |pre|]; }
        }
      }
      AllSpaceStrips(s);
    } else {
      assert s == pre + (r + post);
      StripFrontPadded(pre, r + post);
      StripBackPadded(r, post);
    }
  }

  /** Whitespace in front of a text that starts with a non-space is
      stripped away. */
  lemma {:induction false} StripFrontPadded(pre: string, x: string)
    requires AllSpace(pre) && x != [] && !IsSpace(x[0])
    ensures Strip(pre + x) == Strip(x)
  {
    if pre != [] {
      assert (pre + x)[0] == pre[0];
      assert (pre + x)[1..] == pre[1..] + x;
      assert AllSpace(pre[1..]) by {
        forall i | 0 <= i < |pre[1..]| ensures IsSpace(pre[1..][i]) { assert pre[1..][i] == pre[i + 1]; }
      }
      StripFrontPadded(pre[1..], x);
    } else {
      assert pre + x == x;
    }
  }

  /** Whitespace behind a text with no outer whitespace is stripped away. */
  lemma {:induction false} StripBackPadded(r: string, post: string)
    requires AllSpace(post) && r != [] && !IsSpace(r[0]) && !IsSpace(r[|r| - 1])
    ensures Strip(r + post) == r
  {
    if post != [] {
      var p := post[..|post| - 1];
      assert AllSpace(p) by {
        forall i | 0 <= i < |p| ensures IsSpace(p[i]) { assert p[i] == post[i]; }
      }
      assert (r + post)[0] == r[0];
      assert (r + post)[|r + post| - 1] == post[|post| - 1];
      assert (r + post)[..|r + post| - 1] == r + p;
      StripBackPadded(r, p);
    } else {
      assert r + post == r;
    }
  }

  /** ASCII lower-casing of one character, as str.lower() does on ASCII. */
  function LowerChar(c: char): char {
    if 'A' <= c <= 'Z' then (c as int + 32) as char else c
  }

  function Lower(s: string): (r: string)
    ensures |r| == |s|
    ensures forall i :: 0 <= i < |s| ==> r[i] == LowerChar(s[i])
  {
    seq(|s|, i requires 0 <= i < |s| => LowerChar(s[i]))
  }

  /** Lower-casing twice is lower-casing once. */
  lemma LowerIdempotent(s: string)
    ensures Lower(Lower(s)) == Lower(s)
  {
  }

  predicate IsPrefix(p: string, s: string) {
    |p| <= |s| && s[..|p|] == p
  }

  /** Python's `needle in hay` for strings; the empty needle occurs everywhere. */
  predicate Contains(hay: string, needle: string) {
    exists i | 0 <= i <= |hay| :: IsPrefix(needle, hay[i..])
  }

  predicate EndsWith(s: string, suffix: string) {
    |suffix| <= |s| && s[|s| - |suffix|..] == suffix
  }

  /** Python's s.replace(c, "") for a one-character pattern. */
  function RemoveChar(s: string, c: char): (r: string)
    ensures c !in r
    ensures multiset(r) == multiset(s)[c := 0]
  {
    if s == [] then []
    else
      assert s == [s[0]] + s[1..];
      if s[0] == c then RemoveChar(s[1..], c) else [s[0]] + RemoveChar(s[1..], c)
  }

  /** Removing a character distributes over concatenation, so the kept
      characters stay in their original order. */
  lemma {:induction false} RemoveCharAppend(a: string, b: string, c: char)
    ensures RemoveChar(a + b, c) == RemoveChar(a, c) + RemoveChar(b, c)
  {
    if a != [] {
      assert (a + b)[1..] == a[1..] + b;
      assert (a + b)[0] == a[0];
      RemoveCharAppend(a[1..], b, c);
    } else {
      assert a + b == b;
    }
  }

  /** A string without the character is left as it is. */
  lemma {:induction false} RemoveCharAbsent(s: string, c: char)
    requires c !in s
    ensures RemoveChar(s, c) == s
  {
    if s != [] {
      assert c !in s[1..];
      RemoveCharAbsent(s[1..], c);
    }
  }
}

=== FILE: watcher.dfy ===
/** The two folder watchers: which file events they act on, the ten-second
    debounce they share, and the CIBC watcher's retry loop for locked
    files. The clock is the time each event is seen; the outcome of each
    cleaning attempt is a parameter. */
module Watcher {
  import opened Text

  /** A file-system event: the path it names and whether that is a folder. */
  datatype Event = Event(path: string, isDirectory: bool)

  /** The event and the clock reading when the handler runs. */
  datatype Tick = Tick(event: Event, now: real)

  const AmexExtension: string := ".xls"
  const CibcExtension: string := ".csv"
  const DebounceSeconds: real := 10.0

  /** Last time each path was handed to the cleaner. */
  type Seen = map<string, real>

  /** The watcher acts on files whose lower-cased name ends in its extension. */
  predicate Wanted(e: Event, extension: string) {
    !e.isDirectory && EndsWith(Lower(e.path), extension)
  }

  predicate Recent(seen: Seen, path: string, now: real) {
    path in seen && now - seen[path] < DebounceSeconds
  }

  datatype Decision = Ignored | Debounced | Process

  /** One call of the handler's process method. */
  function Handle(seen: Seen, t: Tick, extension: string): (r: (Decision, Seen))
    ensures r.0 == Ignored <==> !Wanted(t.event, extension)
    ensures r.0 == Debounced <==> Wanted(t.event, extension) && Recent(seen, t.event.path, t.now)
    ensures r.0 == Process ==> r.1 == seen[t.event.path := t.now]
    ensures r.0 != Process ==> r.1 == seen
    ensures forall p :: p != t.event.path ==> (p in r.1 <==> p in seen) && (p in seen ==> r.1[p] == seen[p])
  {
    if !Wanted(t.event, extension) then (Ignored, seen)
    else if Recent(seen, t.event.path, t.now) then (Debounced, seen)
    else (Process, seen[t.event.path := t.now])
  }

  /** The handler applied to a stream of events, from an empty map. */
  function Run(ticks: seq<Tick>, extension: string): (r: (seq<Decision>, Seen))
    ensures |r.0| == |ticks|
  {
    if ticks == [] then ([], map[])
    else
      var before := Run(ticks[..|ticks| - 1], extension);
      var step := Handle(before.1, ticks[|ticks| - 1], extension);
      (before.0 + [step.0], step.1)
  }

  predicate Nondecreasing(ticks: seq<Tick>) {
    forall i, j :: 0 <= i < j < |ticks| ==> ticks[i].now <= ticks[j].now
  }

  /** The map records, for every path, the time of its latest processing,
      and no processing of that path happened later than that. */
  ghost predicate SeenRecords(ticks: seq<Tick>, ds: seq<Decision>, seen: Seen)
    requires |ds| == |ticks|
  {
    && (forall p :: p in seen ==> exists j :: 0 <= j < |ticks| && ds[j] == Process && ticks[j].event.path == p && ticks[j].now == seen[p])
    && (forall j :: 0 <= j < |ticks| && ds[j] == Process ==> ticks[j].event.path in seen && ticks[j].now <= seen[ticks[j].event.path])
  }

  lemma {:induction false} RunRecords(ticks: seq<Tick>, extension: string)
    requires Nondecreasing(ticks)
    ensures SeenRecords(ticks, Run(ticks, extension).0, Run(ticks, extension).1)
  {
    if ticks != [] {
      var init := ticks[..|ticks| - 1];
      var t := ticks[|ticks| - 1];
      var before := Run(init, extension);
      RunRecords(init, extension);
      var step := Handle(before.1, t, extension);
      var ds := before.0 + [step.0];
      assert Run(ticks, extension) == (ds, step.1);
      forall p | p in step.1
        ensures exists j :: 0 <= j < |ticks| && ds[j] == Process && ticks[j].event.path == p && ticks[j].now == step.1[p]
      {
        if step.0 == Process && p == t.event.path {
          assert ds[|ticks| - 1] == Process;
        } else {
          var j :| 0 <= j < |init| && before.0[j] == Process && init[j].event.path == p && init[j].now == before.1[p];
          assert ds[j] == Process && ticks[j] == init[j];
        }
      }
      forall j | 0 <= j < |ticks| && ds[j] == Process
        ensures ticks[j].event.path in step.1 && ticks[j].now <= step.1[ticks[j].event.path]
      {
        if j < |init| {
          assert before.0[j] == Process && ticks[j] == init[j];
          if step.0 == Process && ticks[j].event.path == t.event.path {
            assert ticks[j].now <= t.now;
          }
        }
      }
    }
  }

  /** Earlier decisions do not depend on later events. */
  lemma {:induction false} RunPrefix(ticks: seq<Tick>, extension: string, n: nat)
    requires n <= |ticks|
    ensures Run(ticks[..n], extension).0 == Run(ticks, extension).0[..n]
    decreases |ticks|
  {
    if n < |ticks| {
      var init := ticks[..|ticks| - 1];
      assert init[..n] == ticks[..n];
      RunPrefix(init, extension, n);
    } else {
      assert ticks[..n] == ticks;
    }
  }

  /** The map says a path is recent exactly when one of the recorded
      processings of it is less than ten seconds old. */
  lemma RecentIff(init: seq<Tick>, ds: seq<Decision>, seen: Seen, t: Tick)
    requires |ds| == |init|
    requires SeenRecords(init, ds, seen)
    ensures Recent(seen, t.event.path, t.now) <==>
      exists j :: 0 <= j < |init| && ds[j] == Process && init[j].event.path == t.event.path
                  && t.now - init[j].now < DebounceSeconds
  {
    var p := t.event.path;
    if Recent(seen, p, t.now) {
      var j :| 0 <= j < |init| && ds[j] == Process && init[j].event.path == p && init[j].now == seen[p];
      assert t.now - init[j].now < DebounceSeconds;
    }
  }

  /** The decision on event i is the handler's answer to the map the first
      i events left behind. */
  lemma {:induction false} RunAt(ticks: seq<Tick>, extension: string, i: nat)
    requires i < |ticks|
    ensures Run(ticks, extension).0[..i] == Run(ticks[..i], extension).0
    ensures Run(ticks, extension).0[i] == Handle(Run(ticks[..i], extension).1, ticks[i], extension).0
  {
    RunPrefix(ticks, extension, i);
    RunPrefix(ticks, extension, i + 1);
    var pre := ticks[..i + 1];
    assert pre[..|pre| - 1] == ticks[..i];
    assert pre[|pre| - 1] == ticks[i];
    assert Run(ticks, extension).0[..i + 1][i] == Run(ticks, extension).0[i];
  }

  /** With a clock that does not run backwards, an event is processed
      exactly when its file has the watcher's extension and the same path
      was not processed less than ten seconds before. */
  lemma {:induction false} RunDecides(ticks: seq<Tick>, extension: string, i: nat)
    requires Nondecreasing(ticks)
    requires i < |ticks|
    ensures var ds := Run(ticks, extension).0;
      ds[i] == Process <==>
        && Wanted(ticks[i].event, extension)
        && !exists j :: 0 <= j < i && ds[j] == Process && ticks[j].event.path == ticks[i].event.path
                        && ticks[i].now - ticks[j].now < DebounceSeconds
  {
    var ds := Run(ticks, extension).0;
    var init := ticks[..i];
    var before := Run(init, extension);
    RunAt(ticks, extension, i);
    assert Nondecreasing(init);
    RunRecords(init, extension);
    RecentIff(init, before.0, before.1, ticks[i]);
    assert forall j :: 0 <= j < i ==> ds[j] == before.0[j] && init[j] == ticks[j];
  }

  /** Two processings of the same file are at least ten seconds apart. */
  lemma ProcessedSpaced(ticks: seq<Tick>, extension: string, i: nat, j: nat)
    requires Nondecreasing(ticks)
    requires i < j < |ticks|
    requires Run(ticks, extension).0[i] == Process && Run(ticks, extension).0[j] == Process
    requires ticks[i].event.path == ticks[j].event.path
    ensures ticks[j].now - ticks[i].now >= DebounceSeconds
  {
    RunDecides(ticks, extension, j);
  }

  /** The extension test ignores case: `STATEMENT.XLS` is picked up. */
  lemma UpperCaseExtension(stem: string)
    ensures Wanted(Event(stem + ".XLS", false), AmexExtension)
  {
    var s := stem + ".XLS";
    var l := Lower(s);
    assert l[|l| - 4..] == ['.', LowerChar('X'), LowerChar('L'), LowerChar('S')];
  }

  /** The AMEX watcher does not pick up `.xlsx` workbooks. */
  lemma WorkbookIgnored(e: Event)
    requires EndsWith(Lower(e.path), ".xlsx")
    ensures !Wanted(e, AmexExtension)
  {
    var l := Lower(e.path);
    assert l[|l| - 1] == 'x';
  }

  const MaxAttempts: nat := 5

  /** How one call of the CIBC cleaner ends. */
  datatype Attempt = Done | Locked | Failed

  /** How the retry loop ends: cleaned on some attempt, out of attempts
      (silently), or left by an error other than a locked file. */
  datatype RetryOutcome = Cleaned(attempt: nat) | GaveUp | Raised(attempt: nat)

  /** The first attempt from `from` on that is not locked, or MaxAttempts
      when all the remaining ones are. */
  function FirstUnlocked(outcome: nat -> Attempt, from: nat): (r: nat)
    requires from <= MaxAttempts
    ensures from <= r <= MaxAttempts
    ensures r < MaxAttempts ==> outcome(r) != Locked
    ensures forall k :: from <= k < r ==> outcome(k) == Locked
    decreases MaxAttempts - from
  {
    if from == MaxAttempts || outcome(from) != Locked then from
    else FirstUnlocked(outcome, from + 1)
  }

  /** The CIBC handler's loop: up to five attempts, sleeping one second
      after each locked one. Returns the outcome, the number of cleaner
      calls and the number of one-second sleeps. */
  method Retry(outcome: nat -> Attempt) returns (r: RetryOutcome, calls: nat, sleeps: nat)
    ensures r == GaveUp <==> forall k :: 0 <= k < MaxAttempts ==> outcome(k) == Locked
    ensures r == GaveUp <==> FirstUnlocked(outcome, 0) == MaxAttempts
    ensures !r.GaveUp? ==> r.attempt == FirstUnlocked(outcome, 0)
    ensures r.Cleaned? ==> r.attempt < MaxAttempts && outcome(r.attempt) == Done
    ensures r.Raised? ==> r.attempt < MaxAttempts && outcome(r.attempt) == Failed
    ensures !r.GaveUp? ==> forall k :: 0 <= k < r.attempt ==> outcome(k) == Locked
    ensures calls == (if r.GaveUp? then MaxAttempts else r.attempt + 1)
    ensures sleeps == (if r.GaveUp? then MaxAttempts else r.attempt)
  {
    var attempt: nat := 0;
    calls, sleeps := 0, 0;
    while attempt < MaxAttempts
      invariant attempt <= MaxAttempts
      invariant calls == attempt && sleeps == attempt
      invariant forall k :: 0 <= k < attempt ==> outcome(k) == Locked
    {
      calls := calls + 1;
      match outcome(attempt)
      case Done =>
        return Cleaned(attempt), calls, sleeps;
      case Failed =>
        return Raised(attempt), calls, sleeps;
      case Locked =>
        sleeps := sleeps + 1;
        attempt := attempt + 1;
    }
    r := GaveUp;
  }
}

=== FILE: wrappers.dfy ===
/** Optional values and results with an error, used wherever the modelled
    code produces a missing value (NaN / NaT) or raises. */
module Wrappers {

  datatype Option<+T> = None | Some(value: T) {
    function GetOr(default: T): T {
      match this
      case Some(v) => v
      case None => default
    }
  }

  datatype Result<+R, +E> = Success(value: R) | Failure(error: E)
}
